=== FILE: README.md ===
# Car rental reservation engine, modelled in Dafny

This project models the reservation core of a Spring Boot car-rental
application, written in Kotlin with a JavaScript date picker. Customers book a
car for an inclusive range of calendar days. A booking is refused when:

- the car is unknown;
- the car is inactive;
- a booking of the same car that is not CANCELLED starts no later than the
  requested end and ends no earlier than the requested start (for ordered
  ranges: shares a day with the range).

The model covers:

- the overlap query and `createBooking`;
- the car list queries;
- the availability flag and the greyed-out calendar days;
- the public booking form;
- the REST booking endpoint, with its request validator;
- the admin actions: set a booking's status, delete a booking, update a car
  (deactivating a car cancels its live bookings);
- the front-end date-range picker: its click state machine and its `formatDate`.

Conventions:

- Every operation is a pure function or method over a `Store`. A query (the car lists,
  the availability flag, the unavailable days) returns its answer and no store.
  An action returns a new `Store`, or an error and no store, so a failed action
  leaves the caller's store unchanged.
- A `Store` holds the car table, the booking table and the booking-id counter.
- Dates are day numbers and money is a whole number of cents.
- Clock readings (`LocalDate.now()`, `LocalDateTime.now()`) are parameters.

Two invariants are proved about the operations:

- `Repository.Wf`: car ids are unique, booking ids come from the counter, and
  every booking names a stored car.
- `Repository.NoDoubleBooking`: the non-CANCELLED bookings of one car are
  pairwise disjoint.

Creating a booking, deleting one, cancelling one and updating a car keep both
invariants. Moving a booking out of CANCELLED can break the second. The
admin's status update allows that move; a lemma exhibits it.

Three behaviours of the code worth noting:

- Any status may be written to a booking, including one that takes it out of
  CANCELLED; there is no transition table.
- Creation is a plain read-then-write; nothing serialises two creations for the
  same car.
- The unavailable days are whole bookings expanded. A booking that only starts
  or ends inside the one-year window contributes its days outside it too.

Files, one module each: `wrappers.dfy`, `domain.dfy`, `repository.dfy`,
`booking_service.dfy`, `car_service.dfy`, `availability.dfy`,
`booking_request.dfy`, `rest_api.dfy`, `public_pages.dfy`, `admin.dfy`,
`date_picker.dfy`, `iso_date.dfy`.

Source paths below are relative to the repository root.

## Model

| member | source | states |
|---|---|---|
| Domain.ToInt | car_rental/src/main/kotlin/com/markattila420/car_rental/service/BookingService.kt:42 | the 32-bit `toInt()` conversion: the result is a signed 32-bit value congruent to the input modulo 2^32, and is the input itself when that already fits |
| Domain.NumberOfDays | car_rental/src/main/kotlin/com/markattila420/car_rental/service/BookingService.kt:42 | the stored day count is a 32-bit value; it is the inclusive count `end - start + 1` whenever the difference fits, and at least 1 for any ordered range whose end is less than 2^31 - 1 days after its start |
| Domain.NumberOfDaysWraps | car_rental/src/main/kotlin/com/markattila420/car_rental/service/BookingService.kt:42 | a range whose end is 2^31 - 1 days after its start (2^31 days inclusive) gets the day count -2^31, not 2^31 |
| Repository.FindCarIndex | car_rental/src/main/kotlin/com/markattila420/car_rental/service/BookingService.kt:30-31 | the lookup by id finds the first car carrying the id, and finds nothing exactly when no car carries it |
| Repository.FindCarById | car_rental/src/main/kotlin/com/markattila420/car_rental/service/BookingService.kt:30-31 | a found car is in the table and has the requested id; nothing is found exactly when no car has that id |
| Repository.FindCarByIdUnique | car_rental/src/main/kotlin/com/markattila420/car_rental/entity/Car.kt:10-12 | with ids as primary keys, looking up the id of any stored car returns that very car |
| Repository.FindOverlappingBookings | car_rental/src/main/kotlin/com/markattila420/car_rental/repository/BookingRepository.kt:14-26 | a booking is returned exactly when it belongs to the car, is not CANCELLED, starts no later than the query's end and ends no earlier than its start; returned rows are the stored rows |
| Repository.FindActiveBookingsByCarId | car_rental/src/main/kotlin/com/markattila420/car_rental/controller/AdminController.kt:105 | a booking is returned exactly when it belongs to the car and is not CANCELLED |
| Repository.OverlapIsSymmetric | car_rental/src/main/kotlin/com/markattila420/car_rental/repository/BookingRepository.kt:19 | for a live booking of the car, being returned is the same as the booking starting no later than the requested end and ending no earlier than the requested start, read from either side (for ordered ranges: sharing a day) |
| Repository.OverlapMeansSharedDay | car_rental/src/main/kotlin/com/markattila420/car_rental/repository/BookingRepository.kt:19 | for two ordered ranges, the query's comparison holds exactly when some day lies in both |
| Repository.InvertedRangeStillOverlaps | car_rental/src/main/kotlin/com/markattila420/car_rental/repository/BookingRepository.kt:19 | a stored range from day 10 back to day 8 covers no day, yet the comparison matches a request for days 5 to 12 |
| Repository.CancelledNeverConflicts | car_rental/src/main/kotlin/com/markattila420/car_rental/repository/BookingRepository.kt:17 | a CANCELLED booking is never returned, whatever its car and dates |
| Repository.AdjacentRangesDoNotConflict | car_rental/src/main/kotlin/com/markattila420/car_rental/repository/BookingRepository.kt:19 | a booking ending the day before the query starts, or starting the day after it ends, is not returned: back-to-back rentals are allowed |
| Repository.SameRangeConflicts | car_rental/src/main/kotlin/com/markattila420/car_rental/repository/BookingRepository.kt:19 | a live booking with an ordered range is returned for a query on its own car and dates |
| Repository.OverlapWitness | car_rental/src/main/kotlin/com/markattila420/car_rental/service/BookingService.kt:37-40 | a non-empty query result contains a stored booking that conflicts with the range |
| BookingService.NewBooking | car_rental/src/main/kotlin/com/markattila420/car_rental/service/BookingService.kt:42-57 | the inserted row carries the car, customer and dates it was asked for, is PENDING and stamped with the clock reading, counts `end - start + 1` days when that fits in 32 bits, and costs the daily rate times its day count |
| BookingService.CreateBooking | car_rental/src/main/kotlin/com/markattila420/car_rental/service/BookingService.kt:20-60 | unknown car gives CarNotFound; inactive car gives CarNotAvailable; for an active car, success exactly when no stored live booking of the car meets the range, otherwise AlreadyBooked; on success the new row is added under a fresh counter id, the car table is unchanged and every other booking is unchanged |
| BookingService.InsertKeepsNoDoubleBooking | car_rental/src/main/kotlin/com/markattila420/car_rental/service/BookingService.kt:37-59 | inserting a booking that the overlap check let through keeps every car's live bookings pairwise disjoint |
| BookingService.InsertKeepsWf | car_rental/src/main/kotlin/com/markattila420/car_rental/service/BookingService.kt:45-59 | inserting a booking of a stored car under the next counter id keeps the table facts and adds exactly one row |
| BookingService.CreateBookingKeepsInvariants | car_rental/src/main/kotlin/com/markattila420/car_rental/service/BookingService.kt:20-60 | a successful create grows the booking table by exactly one row and keeps both the table facts and the no-double-booking invariant |
| BookingService.PricingExamples | car_rental/src/test/kotlin/com/markattila420/car_rental/controller/CarRentalApiControllerIntegrationTest.kt:394-493 | at 500.00 a day, the five days from tomorrow count 5 days and cost 2500.00, and a booking starting and ending tomorrow counts 1 day and costs 500.00 |
| CarService.FindAllActiveCars | car_rental/src/main/kotlin/com/markattila420/car_rental/service/CarService.kt:24-27 | the result holds exactly the active cars of the table, in table order |
| CarService.WithoutConflicts | car_rental/src/main/kotlin/com/markattila420/car_rental/service/CarService.kt:36-43 | the filter keeps exactly the cars with no live booking meeting the range, in their original order |
| CarService.FindAvailableCars | car_rental/src/main/kotlin/com/markattila420/car_rental/service/CarService.kt:29-44 | with a date missing, every active car; with both dates, exactly the active cars with no live booking meeting the range; always an order-preserving selection of the active list |
| CarService.OnlyUnbookedCarIsOffered | car_rental/src/main/kotlin/com/markattila420/car_rental/service/CarService.kt:29-44 | of two active cars, the one booked over the searched range is left out and only the other is listed |
| Availability.CheckCarAvailability | car_rental/src/main/kotlin/com/markattila420/car_rental/controller/ApiController.kt:20-35 | unknown or inactive car: not available; active car: available exactly when no live booking of it meets the range |
| Availability.CreateSucceedsIffAvailable | car_rental/src/main/kotlin/com/markattila420/car_rental/controller/ApiController.kt:26-34 | on the same store, the availability flag is true exactly for the requests `createBooking` accepts |
| Availability.AddDays | car_rental/src/main/kotlin/com/markattila420/car_rental/controller/ApiController.kt:54-58 | walking a booking day by day adds exactly its days, start to end inclusive, to the set |
| Availability.CollectDays | car_rental/src/main/kotlin/com/markattila420/car_rental/controller/ApiController.kt:52-59 | the collected set holds exactly the days covered by some booking, and comes with bounds enclosing it |
| Availability.ListAscending | car_rental/src/main/kotlin/com/markattila420/car_rental/controller/ApiController.kt:61 | the listed days are exactly the set's days, strictly ascending |
| Availability.ExpandDays | car_rental/src/main/kotlin/com/markattila420/car_rental/controller/ApiController.kt:52-61 | the result lists each day covered by some booking exactly once, in ascending order, and no other day |
| Availability.GetUnavailableDates | car_rental/src/main/kotlin/com/markattila420/car_rental/controller/ApiController.kt:37-62 | unknown or inactive car: no days; otherwise exactly the days of the live bookings of the car that meet the window, strictly ascending |
| Availability.FirstDayIsEarliestStart | car_rental/src/main/kotlin/com/markattila420/car_rental/controller/ApiController.kt:52-61 | the first listed day is the start of some booking and no later than the start of any booking covering a day |
| Availability.FreeCalendarRangeHasNoConflict | car_rental/src/main/kotlin/com/markattila420/car_rental/controller/ApiController.kt:37-62 | a range inside the window that avoids every listed day meets no live booking of the car, provided the live bookings have ordered ranges: the calendar's grey days are a sound guide to availability |
| BookingRequest.Violations | car_rental/src/main/kotlin/com/markattila420/car_rental/dto/CreateBookingRequest.kt:7-35 | each constraint is reported exactly when it is broken: car id not positive, blank or wrongly sized name (2-100 UTF-16 code units, as Java's `String.length()` counts), blank email, blank or wrongly sized address (5-200 code units), blank phone, phone not an optional `+` followed by 10-15 digits |
| BookingRequest.PhonePatternImpliesNotBlank | car_rental/src/main/kotlin/com/markattila420/car_rental/dto/CreateBookingRequest.kt:24-26 | a phone number that matches the pattern is never blank |
| BookingRequest.DatesAreNotValidated | car_rental/src/main/kotlin/com/markattila420/car_rental/dto/CreateBookingRequest.kt:28-34 | changing the dates never changes whether the request passes validation |
| BookingRequest.ValidationExamples | car_rental/src/test/kotlin/com/markattila420/car_rental/controller/CarRentalApiControllerIntegrationTest.kt:423-445 | the tests' request is valid, and stays valid with the name changed to "Jo" and the email to "jo@example.com", as the test submits it |
| BookingRequest.ValidationFailureExamples | car_rental/src/test/kotlin/com/markattila420/car_rental/controller/CarRentalApiControllerIntegrationTest.kt:196-468 | the one-letter name "J", the three-character address "123" and the phone "123" each break exactly one constraint, the size or pattern one |
| BookingRequest.NoViolations | car_rental/src/main/kotlin/com/markattila420/car_rental/dto/CreateBookingRequest.kt:7-35 | a request whose every field meets its constraints has no violation; the phone's blank check is implied by its pattern |
| BookingRequest.OnlyNameSize | car_rental/src/main/kotlin/com/markattila420/car_rental/dto/CreateBookingRequest.kt:12-14 | in an otherwise valid request, a non-blank name of the wrong size is reported as the size violation and nothing else |
| BookingRequest.OnlyAddressSize | car_rental/src/main/kotlin/com/markattila420/car_rental/dto/CreateBookingRequest.kt:20-22 | in an otherwise valid request, a non-blank address of the wrong size is reported as the size violation and nothing else |
| BookingRequest.OnlyPhonePattern | car_rental/src/main/kotlin/com/markattila420/car_rental/dto/CreateBookingRequest.kt:24-26 | in an otherwise valid request, a non-blank phone that misses the pattern is reported as the pattern violation and nothing else |
| BookingRequest.Utf16Length | car_rental/src/main/kotlin/com/markattila420/car_rental/dto/CreateBookingRequest.kt:13 | the length `@Size` measures is between the number of characters and twice that number |
| BookingRequest.BmpLength | car_rental/src/main/kotlin/com/markattila420/car_rental/dto/CreateBookingRequest.kt:13 | for text inside the Basic Multilingual Plane, the measured length is the number of characters |
| BookingRequest.WideLength | car_rental/src/main/kotlin/com/markattila420/car_rental/dto/CreateBookingRequest.kt:13 | for text made only of characters outside the Basic Multilingual Plane, the measured length is twice the number of characters |
| BookingRequest.SizeCountsUtf16Units | car_rental/src/main/kotlin/com/markattila420/car_rental/dto/CreateBookingRequest.kt:12-14 | a name of one character outside the Basic Multilingual Plane meets the two-unit minimum, and a name of a hundred such characters breaks the hundred-unit maximum |
| RestApi.CreateBookingEndpoint | car_rental/src/main/kotlin/com/markattila420/car_rental/controller/CarRentalApiController.kt:38-72 | an invalid body is refused with its violations; then an inverted range, then a start before today; otherwise the service decides; a created booking is PENDING, starts no earlier than today, is ordered, carries the request's car, customer and dates, and counts at least one day |
| PublicPages.BookingPage | car_rental/src/main/kotlin/com/markattila420/car_rental/controller/PublicController.kt:41-57 | the page opens exactly when an active car has the id, and then shows that car; any other id fails |
| PublicPages.SubmitBooking | car_rental/src/main/kotlin/com/markattila420/car_rental/controller/PublicController.kt:59-87 | the form fails exactly when `createBooking` fails, and with the same error; on success it stores under the next counter id the row `createBooking` builds from the form's car, customer and dates, and leaves the car table and every other booking as they were |
| PublicPages.FormSubmissionStoresBooking | car_rental/src/test/kotlin/com/markattila420/car_rental/controller/PublicControllerIntegrationTest.kt:180-204 | on an empty booking table, submitting tomorrow to three days ahead for an active car stores exactly one booking, with the customer and the car |
| PublicPages.FormSubmissionPricing | car_rental/src/test/kotlin/com/markattila420/car_rental/controller/PublicControllerIntegrationTest.kt:398-420 | on an empty booking table, submitting tomorrow to five days ahead for an active car at 50.00 a day stores one booking of 5 days costing 250.00 |
| PublicPages.SubmitBookingAcceptsInvertedRange | car_rental/src/main/kotlin/com/markattila420/car_rental/controller/PublicController.kt:59-87 | the form stores the range from day 10 back to day 8 as -1 days costing -50.00; that booking covers no day, yet it refuses a later request for days 5 to 12 |
| PublicPages.SubmitBookingChecked | car_rental/src/main/kotlin/com/markattila420/car_rental/controller/CarRentalApiController.kt:43-45 | the corrected form refuses an end before the start, otherwise behaves as the form; a booking it adds is ordered and counts at least one day |
| PublicPages.SubmitBookingCheckedKeepsRangesWellFormed | car_rental/src/main/kotlin/com/markattila420/car_rental/controller/PublicController.kt:59-87 | with the range check, every live booking keeps an ordered range |
| Admin.UpdateBookingStatus | car_rental/src/main/kotlin/com/markattila420/car_rental/controller/AdminController.kt:34-49 | the update succeeds exactly when the id is stored, and an unknown id gives BookingNotFound; on success the booking takes the new status, whatever the old one, and nothing else in the store changes |
| Admin.UpdateBookingStatusKeepsInvariants | car_rental/src/main/kotlin/com/markattila420/car_rental/controller/AdminController.kt:40-43 | a status change that cancels, or that touches a booking which is not CANCELLED, keeps the table facts and the no-double-booking invariant |
| Admin.ReopeningCancelledBookingCanDoubleBook | car_rental/src/main/kotlin/com/markattila420/car_rental/controller/AdminController.kt:34-49 | from a valid store, setting a CANCELLED booking back to PENDING can leave two live bookings of one car on the same days |
| Admin.DeleteBooking | car_rental/src/main/kotlin/com/markattila420/car_rental/controller/AdminController.kt:51-63 | the booking with the id is gone, every other booking and the car table are untouched, and an unknown id changes nothing |
| Admin.DeleteBookingKeepsInvariants | car_rental/src/main/kotlin/com/markattila420/car_rental/controller/AdminController.kt:51-63 | deleting keeps the table facts and the no-double-booking invariant |
| Admin.CancelActiveBookings | car_rental/src/main/kotlin/com/markattila420/car_rental/controller/AdminController.kt:104-111 | every live booking of the car becomes CANCELLED with nothing else changed, every other booking stays, and afterwards the car has no live booking |
| Admin.UpdateCar | car_rental/src/main/kotlin/com/markattila420/car_rental/controller/AdminController.kt:65-126 | the update succeeds exactly when a car has the id, and an unknown id gives CarNotFound; on success brand, model, rate, active flag and update time are replaced and every other car is untouched; only a change from active to inactive cancels the car's live bookings and reports how many, otherwise no booking changes and 0 is reported |
| Admin.UpdateCarKeepsInvariants | car_rental/src/main/kotlin/com/markattila420/car_rental/controller/AdminController.kt:78-111 | updating a car keeps the table facts and the no-double-booking invariant, and after a deactivation the car has no live booking left |
| Admin.DeactivationCancelsBooking | car_rental/src/test/kotlin/com/markattila420/car_rental/controller/AdminControllerIntegrationTest.kt:192-214 | deactivating the tests' active car with its one PENDING booking, brand, model and rate unchanged, succeeds, reports 1, leaves the car inactive and the booking CANCELLED |
| Admin.DeactivationSkipsCancelled | car_rental/src/main/kotlin/com/markattila420/car_rental/controller/AdminController.kt:104-111 | from a store satisfying both invariants, deactivating a car with two PENDING bookings on disjoint days and one CANCELLED one cancels the two, reports 2 and leaves the third as it was |
| Admin.CancelKeepsInvariant | car_rental/src/main/kotlin/com/markattila420/car_rental/controller/AdminController.kt:104-111 | the cascade keeps every booking's car and keeps the car's live bookings pairwise disjoint |
| DatePicker.NavigateMonth | car_rental/src/main/resources/static/js/dateRangePicker.js:122-130 | the selection is untouched; "previous" never goes below the current month; "next" moves one month forward |
| DatePicker.OffsetStaysInRange | car_rental/src/main/resources/static/js/dateRangePicker.js:122-130 | after any run of clicks the month offset stays between 0 and the starting offset plus the number of clicks |
| DatePicker.TogglePicker | car_rental/src/main/resources/static/js/dateRangePicker.js:111-120 | closing leaves the picker state alone; opening returns to the current month; the selection and the picker's consistency survive either way |
| DatePicker.OpenedOffsetBound | car_rental/src/main/resources/static/js/dateRangePicker.js:111-130 | after opening the picker, any run of month clicks leaves the offset between 0 and the number of clicks |
| DatePicker.HasDisabledDatesInRange | car_rental/src/main/resources/static/js/dateRangePicker.js:339-349 | true exactly when some disabled day lies between the two dates, both inclusive |
| DatePicker.HandleDateClick | car_rental/src/main/resources/static/js/dateRangePicker.js:132-179 | clicks on disabled, padding or other elements change nothing; a click with no start or a completed range starts a new selection; a second click completes the range in date order, unless a disabled day lies in between, which restarts the selection at the clicked day |
| DatePicker.HandleDateClickIsConsistent | car_rental/src/main/resources/static/js/dateRangePicker.js:141-172 | any click keeps the picker consistent, and a click on an enabled day makes it consistent: a completed range is ordered and holds no disabled day |
| DatePicker.ConfirmSelection | car_rental/src/main/resources/static/js/dateRangePicker.js:311-323 | the range is handed on exactly when both ends are chosen, and then as (start, end) |
| DatePicker.ConfirmedRangeIsBookable | car_rental/src/main/resources/static/js/dateRangePicker.js:311-323 | a confirmed range from a consistent picker is ordered and contains no disabled day |
| IsoDate.Decimal | car_rental/src/main/resources/static/js/dateRangePicker.js:283-284 | a number's decimal text is non-empty, all digits, one digit long exactly for numbers below ten, and starts with `0` only for zero itself (no leading zero) |
| IsoDate.FormatDate | car_rental/src/main/resources/static/js/dateRangePicker.js:281-286 | the text ends in `-MM-DD`: two dashes three characters apart and two digits after each |
| IsoDate.DecimalRoundTrip | car_rental/src/main/resources/static/js/dateRangePicker.js:283-284 | reading back a number's decimal text gives the number |
| IsoDate.PadStart2RoundTrip | car_rental/src/main/resources/static/js/dateRangePicker.js:283-284 | a number below 100 padded to two digits is two digits long and reads back as the number |
| IsoDate.SignedRoundTrip | car_rental/src/main/resources/static/js/dateRangePicker.js:282 | reading back a year's text, with its sign, gives the year |
| IsoDate.NegativeRoundTrip | car_rental/src/main/resources/static/js/dateRangePicker.js:282 | reading back a minus sign followed by the digits of m gives -m |
| IsoDate.FormatDateRoundTrip | car_rental/src/main/resources/static/js/dateRangePicker.js:281-286 | reading back a formatted date gives its year, month and day |
| IsoDate.FormatDateInjective | car_rental/src/main/resources/static/js/dateRangePicker.js:221-223 | two dates have the same text exactly when they are the same date, so matching day texts against the disabled list matches the days |
| IsoDate.FormatDateIsIso8601 | car_rental/src/main/resources/static/js/dateRangePicker.js:281-286 | for years 1000 to 9999 the text is ten characters, digits everywhere but the dashes at positions 4 and 7 |
| IsoDate.ShortYearIsNotIso8601 | car_rental/src/main/resources/static/js/dateRangePicker.js:281-286 | for years 0 to 999 the unpadded year makes the text shorter than the ten characters of an ISO 8601 date |
| IsoDate.ParseJoined | car_rental/src/main/resources/static/js/dateRangePicker.js:281-286 | a year text joined by dashes to two month digits and two day digits reads back as those three parts |

## Left out

- Concurrency. Each operation is one atomic step on the store. The model does
  not cover two creations for the same car interleaving their read and write.
- Persistence mechanics, HTTP routing, HTML views, flash messages, the mapping
  of exceptions to HTTP statuses, security configuration and the response DTOs.
  The model only keeps the error each path reports.
- Car images. This covers the image branch of `updateCar`, `saveCar`,
  `addCar`, `getNewImagePath` and `saveImage`; all of them are file I/O and
  random file names. `Admin.UpdateCar` models an update without a new image.
- The admin overview page. It only sorts the tables for display.
- `homePage` and `getAvailableCars`. Both return `findAvailableCars` unchanged,
  so they are covered by `CarService.FindAvailableCars`.
- The copies of the availability endpoints inside `PublicController`. They are
  identical to `ApiController`'s and are covered by the `Availability` members.
- The clock. `LocalDate.now()` and `LocalDateTime.now()` are parameters.
  `today.plusYears(1)` is the `horizonEnd` parameter of
  `Availability.GetUnavailableDates`, because calendar-year arithmetic is not
  modelled.
- The `@Email` format check. Its syntax belongs to an external library; the
  email is only required to be non-blank.
- Missing or null JSON fields. The Kotlin properties are non-null, so such a
  body is refused before validation.
- The `(10, 2)` precision of the money columns. An amount above 99,999,999.99
  would be refused by the database; cents are unbounded here.
- CarService.FindAllActiveCars: lists the active cars in table order. The
  `findByActiveTrue` query has no ORDER BY, so the order the database returns is
  unspecified; the model picks table order.
- Repository.FindActiveBookingsByCarId: the booking repository interface does
  not declare `findActiveBookingsByCarId`. It is read as "bookings of the car
  that are not CANCELLED".
- Availability.GetUnavailableDates: orders the days by day number, while the
  source sorts their `yyyy-MM-dd` texts. The two orders agree for years 0 to
  9999.
- RestApi.CreateBookingEndpoint: promises at least one day only for ranges
  whose end is less than 2^31 - 1 days after their start. A range whose end is
  2^31 - 1 days after its start (2^31 days inclusive) wraps in the 32-bit day
  count (see `Domain.NumberOfDaysWraps`).
- The date picker's DOM work. This covers construction and reading the input
  fields, rendering, the display text, the showing and hiding in `togglePicker`
  (its month reset is modelled), the outside-click handler, `setDateRange`, `clearDateRange` and `setDisabledDates`. Dates are
  day numbers. A click target carries its day and whether it is disabled,
  that is, before today or listed as unavailable.
- JavaScript `Date` and time zones. `formatDate` is modelled on the calendar
  fields it reads, not on the conversion from an instant.

## Findings

| source | as written | input that shows it | evidently intended | confidence | as-written member | corrected member |
|---|---|---|---|---|---|---|
| car_rental/src/main/kotlin/com/markattila420/car_rental/controller/PublicController.kt:59-87 | the booking form passes its two dates to `createBooking` without checking their order, and `createBooking` does not check it either | a car at 50.00 a day, start day 10, end day 8: a booking of -1 days costing -50.00 is stored; it greys out no calendar day, yet it refuses every request spanning days 8 to 10 | refuse an end date before the start date, as the REST endpoint does at `CarRentalApiController.kt` lines 43-45 | medium, not executed | PublicPages.SubmitBookingAcceptsInvertedRange | PublicPages.SubmitBookingChecked |

=== FILE: admin.dfy ===
/**
 * The store-changing actions of `AdminController`: set a booking's status,
 * delete a booking, and update a car, where switching an active car to inactive
 * cancels its live bookings. Each action is one sequential step; an action that
 * reports an error leaves the store as it was.
 */
module Admin {
  import opened Wrappers
  import opened Domain
  import opened Repository

  /** `updateBookingStatus`: any status may be written, including one that takes a
      booking out of CANCELLED. Only the status changes. */
  function UpdateBookingStatus(store: Store, id: BookingId, status: BookingStatus): (r: Result<Store, Error>)
    ensures id in store.bookings <==> r.Success?
    ensures id !in store.bookings <==> r == Failure(BookingNotFound)
    ensures r.Success? ==>
      && r.value.cars == store.cars
      && r.value.nextBookingId == store.nextBookingId
      && r.value.bookings.Keys == store.bookings.Keys
      && r.value.bookings[id].status == status
      && r.value.bookings[id] == store.bookings[id].(status := r.value.bookings[id].status)
      && forall k :: k in store.bookings && k != id ==> r.value.bookings[k] == store.bookings[k]
  {
    if id in store.bookings then
      Success(store.(bookings := store.bookings[id := store.bookings[id].(status := status)]))
    else
      Failure(BookingNotFound)
  }

  /** A status change keeps the table facts, and keeps bookings disjoint unless it
      brings a CANCELLED booking back to life. */
  lemma UpdateBookingStatusKeepsInvariants(store: Store, id: BookingId, status: BookingStatus)
    requires Wf(store) && NoDoubleBooking(store.bookings)
    requires id in store.bookings
    requires status == Cancelled || Live(store.bookings[id])
    ensures Wf(UpdateBookingStatus(store, id, status).value)
    ensures NoDoubleBooking(UpdateBookingStatus(store, id, status).value.bookings)
  {
    var s' := UpdateBookingStatus(store, id, status).value;
    forall i, j |
      i in s'.bookings && j in s'.bookings && i != j
      && s'.bookings[i].carId == s'.bookings[j].carId
      && Live(s'.bookings[i]) && Live(s'.bookings[j])
      ensures !RangesOverlap(s'.bookings[i].startDate, s'.bookings[i].endDate, s'.bookings[j].startDate, s'.bookings[j].endDate)
    {
      assert Live(store.bookings[i]) && Live(store.bookings[j]);
    }
  }

  /** Reopening a CANCELLED booking can double-book a car: two bookings of the same
      car for the same days, one of them cancelled, are disjoint as far as the
      invariant goes, and setting the cancelled one back to PENDING breaks it. */
  lemma ReopeningCancelledBookingCanDoubleBook(car: Car, b: Booking)
    requires b.carId == car.id && b.startDate <= b.endDate && b.status == Pending
    ensures var store := Store([car], map[1 := b, 2 := b.(status := Cancelled)], 3);
      && Wf(store)
      && NoDoubleBooking(store.bookings)
      && !NoDoubleBooking(UpdateBookingStatus(store, 2, Pending).value.bookings)
  {
    var store := Store([car], map[1 := b, 2 := b.(status := Cancelled)], 3);
    var s' := UpdateBookingStatus(store, 2, Pending).value;
    assert s'.bookings[1] == b && s'.bookings[2] == b;
    assert FindCarIndex(store.cars, car.id) == Some(0);
  }

  /** `deleteBooking`: the booking with that id is gone and nothing else changes;
      deleting an unknown id changes nothing. */
  function DeleteBooking(store: Store, id: BookingId): (r: Store)
    ensures r.cars == store.cars && r.nextBookingId == store.nextBookingId
    ensures r.bookings.Keys == store.bookings.Keys - {id}
    ensures forall k :: k in r.bookings ==> r.bookings[k] == store.bookings[k]
    ensures id !in store.bookings ==> r == store
  {
    store.(bookings := store.bookings - {id})
  }

  /** Deleting a booking keeps the table facts and the non-overlap invariant. */
  lemma DeleteBookingKeepsInvariants(store: Store, id: BookingId)
    requires Wf(store) && NoDoubleBooking(store.bookings)
    ensures Wf(DeleteBooking(store, id)) && NoDoubleBooking(DeleteBooking(store, id).bookings)
  {
    var s' := DeleteBooking(store, id);
    forall i, j |
      i in s'.bookings && j in s'.bookings && i != j
      && s'.bookings[i].carId == s'.bookings[j].carId
      && Live(s'.bookings[i]) && Live(s'.bookings[j])
      ensures !RangesOverlap(s'.bookings[i].startDate, s'.bookings[i].endDate, s'.bookings[j].startDate, s'.bookings[j].endDate)
    {
      assert s'.bookings[i] == store.bookings[i] && s'.bookings[j] == store.bookings[j];
    }
  }

  /** Every live booking of the car becomes CANCELLED; every other booking stays. */
  function CancelActiveBookings(bookings: map<BookingId, Booking>, carId: CarId): (r: map<BookingId, Booking>)
    ensures r.Keys == bookings.Keys
    ensures forall k :: k in bookings && k in FindActiveBookingsByCarId(bookings, carId) ==>
      r[k] == bookings[k].(status := Cancelled)
    ensures forall k :: k in bookings && k !in FindActiveBookingsByCarId(bookings, carId) ==>
      r[k] == bookings[k]
    ensures forall k :: k in r && r[k].carId == carId ==> !Live(r[k])
  {
    map k | k in bookings ::
      if bookings[k].carId == carId && Live(bookings[k]) then bookings[k].(status := Cancelled) else bookings[k]
  }

  /** `updateCar` without a new image: brand, model, daily rate and the active flag
      are replaced and `updatedAt` is set to `now`; id, image and `createdAt` are
      kept. When the car goes from active to inactive, its live bookings are
      cancelled and their number is reported; otherwise no booking changes and 0
      is reported. */
  function UpdateCar(store: Store, id: CarId, brand: string, model: string, dailyRate: Cents, active: bool, now: Instant)
    : (r: Result<(Store, nat), Error>)
    ensures FindCarIndex(store.cars, id).Some? <==> r.Success?
    ensures FindCarIndex(store.cars, id).None? <==> r == Failure(CarNotFound)
    ensures r.Success? ==>
      var i := FindCarIndex(store.cars, id).value;
      var (s', cancelledCount) := r.value;
      var car := store.cars[i];
      && |s'.cars| == |store.cars|
      && s'.cars[i] == car.(brand := brand, model := model, dailyRate := dailyRate, active := active, updatedAt := now)
      && (forall j :: 0 <= j < |store.cars| && j != i ==> s'.cars[j] == store.cars[j])
      && s'.nextBookingId == store.nextBookingId
      && (car.active && !active ==>
            && s'.bookings == CancelActiveBookings(store.bookings, id)
            && cancelledCount == |FindActiveBookingsByCarId(store.bookings, id)|)
      && (!(car.active && !active) ==> s'.bookings == store.bookings && cancelledCount == 0)
  {
    match FindCarIndex(store.cars, id)
    case None => Failure(CarNotFound)
    case Some(i) =>
      var car := store.cars[i];
      var isBeingDeactivated := car.active && !active;
      var updated := car.(brand := brand, model := model, dailyRate := dailyRate, active := active, updatedAt := now);
      var cars := store.cars[i := updated];
      if isBeingDeactivated then
        var activeBookings := FindActiveBookingsByCarId(store.bookings, id);
        Success((Store(cars, CancelActiveBookings(store.bookings, id), store.nextBookingId), |activeBookings|))
      else
        Success((store.(cars := cars), 0))
  }

  /** Updating a car keeps the table facts and the non-overlap invariant, and after
      a deactivation the car has no live booking left. (A car that was already
      inactive may still have live bookings: a status update can reopen one.) */
  lemma UpdateCarKeepsInvariants(store: Store, id: CarId, brand: string, model: string, dailyRate: Cents, active: bool, now: Instant)
    requires Wf(store) && NoDoubleBooking(store.bookings)
    ensures var r := UpdateCar(store, id, brand, model, dailyRate, active, now);
      r.Success? ==>
        && Wf(r.value.0)
        && NoDoubleBooking(r.value.0.bookings)
        && (FindCarById(store.cars, id).value.active && !active ==>
              FindActiveBookingsByCarId(r.value.0.bookings, id) == map[])
  {
    var r := UpdateCar(store, id, brand, model, dailyRate, active, now);
    if r.Success? {
      var s' := r.value.0;
      assert forall j :: 0 <= j < |s'.cars| ==> s'.cars[j].id == store.cars[j].id;
      CarIdsKeepIndex(store.cars, s'.cars);
      CancelKeepsInvariant(store.bookings, id);
    }
  }

  /** Cancelling a car's live bookings keeps every booking's car and keeps the
      non-overlap invariant. */
  lemma CancelKeepsInvariant(bookings: map<BookingId, Booking>, carId: CarId)
    requires NoDoubleBooking(bookings)
    ensures forall k :: k in bookings ==> CancelActiveBookings(bookings, carId)[k].carId == bookings[k].carId
    ensures NoDoubleBooking(CancelActiveBookings(bookings, carId))
  {
    var c := CancelActiveBookings(bookings, carId);
    forall k | k in c
      ensures c[k].carId == bookings[k].carId
      ensures Live(c[k]) ==> c[k] == bookings[k]
    {
    }
  }

  /** Deactivating a car with one PENDING booking, submitting its brand, model and
      rate unchanged: the car becomes inactive and the booking CANCELLED. */
  lemma DeactivationCancelsBooking(car: Car, b: Booking, now: Instant)
    requires car.active && b.carId == car.id && b.status == Pending
    ensures var store := Store([car], map[1 := b], 2);
      var r := UpdateCar(store, car.id, car.brand, car.model, car.dailyRate, false, now);
      && r.Success?
      && r.value.1 == 1
      && !r.value.0.cars[0].active
      && r.value.0.bookings[1] == b.(status := Cancelled)
  {
    var store := Store([car], map[1 := b], 2);
    assert FindCarIndex(store.cars, car.id) == Some(0);
    assert FindActiveBookingsByCarId(store.bookings, car.id) == map[1 := b];
  }

  /** Deactivating a car with two PENDING bookings on disjoint days and one
      CANCELLED booking cancels the two and reports 2; the CANCELLED one is left
      as it was. The starting store satisfies both invariants. */
  lemma DeactivationSkipsCancelled(car: Car, b: Booking, now: Instant)
    requires car.active && b.carId == car.id && b.status == Pending
    ensures var b2 := b.(startDate := b.endDate + 1, endDate := b.endDate + 1);
      var c := b.(status := Cancelled);
      var store := Store([car], map[1 := b, 2 := b2, 3 := c], 4);
      var r := UpdateCar(store, car.id, car.brand, car.model, car.dailyRate, false, now);
      && Wf(store)
      && NoDoubleBooking(store.bookings)
      && r.Success?
      && r.value.1 == 2
      && r.value.0.bookings == map[1 := c, 2 := b2.(status := Cancelled), 3 := c]
  {
    var b2 := b.(startDate := b.endDate + 1, endDate := b.endDate + 1);
    var c := b.(status := Cancelled);
    var store := Store([car], map[1 := b, 2 := b2, 3 := c], 4);
    assert FindCarIndex(store.cars, car.id) == Some(0);
    assert FindActiveBookingsByCarId(store.bookings, car.id) == map[1 := b, 2 := b2];
    assert CancelActiveBookings(store.bookings, car.id) == map[1 := c, 2 := b2.(status := Cancelled), 3 := c];
  }

  /** Sequences of cars with the same ids position by position give the same
      `findById` answers and the same uniqueness. */
  lemma CarIdsKeepIndex(cars: seq<Car>, cars': seq<Car>)
    requires |cars| == |cars'|
    requires forall j :: 0 <= j < |cars| ==> cars'[j].id == cars[j].id
    ensures forall id :: FindCarIndex(cars', id) == FindCarIndex(cars, id)
    ensures UniqueCarIds(cars) ==> UniqueCarIds(cars')
  {
    forall id ensures FindCarIndex(cars', id) == FindCarIndex(cars, id) {
      if |cars| > 0 {
        CarIdsKeepIndex(cars[1..], cars'[1..]);
      }
    }
  }
}

=== FILE: availability.dfy ===
/**
 * The availability endpoints of `ApiController` (`/api/cars/{carId}/...`), which
 * `PublicController` repeats line for line: the per-car availability flag and
 * the list of days the booking calendar greys out.
 */
module Availability {
  import opened Wrappers
  import opened Domain
  import opened Repository
  import BookingService

  /** `checkCarAvailability`: false for an unknown or inactive car; otherwise true
      exactly when the overlap query comes back empty. */
  function CheckCarAvailability(store: Store, carId: CarId, startDate: Date, endDate: Date): (available: bool)
    ensures FindCarById(store.cars, carId).None? ==> !available
    ensures FindCarById(store.cars, carId).Some? && !FindCarById(store.cars, carId).value.active ==> !available
    ensures FindCarById(store.cars, carId).Some? && FindCarById(store.cars, carId).value.active ==>
      (available <==> forall id :: id in store.bookings ==> !Conflicts(store.bookings[id], carId, startDate, endDate))
  {
    match FindCarById(store.cars, carId)
    case None => false
    case Some(car) =>
      if !car.active then false
      else
        var found := FindOverlappingBookings(store.bookings, carId, startDate, endDate);
        if found == map[] then true
        else
          OverlapWitness(store.bookings, carId, startDate, endDate);
          false
  }

  /** Availability and creation agree: on an unchanged store, `createBooking`
      succeeds for exactly the requests the availability endpoint reports as free. */
  lemma CreateSucceedsIffAvailable(store: Store, carId: CarId, customer: Customer, startDate: Date, endDate: Date, now: Instant)
    ensures BookingService.CreateBooking(store, carId, customer, startDate, endDate, now).Success?
        <==> CheckCarAvailability(store, carId, startDate, endDate)
  {
  }

  /** Day `d` falls inside one of the given bookings. */
  ghost predicate Covered(found: map<BookingId, Booking>, d: Date) {
    exists id :: id in found && found[id].startDate <= d <= found[id].endDate
  }

  /** Day `d` falls inside one of the bookings whose ids are in `ids`. */
  ghost predicate CoveredBy(found: map<BookingId, Booking>, ids: set<BookingId>, d: Date) {
    exists id :: id in ids && id in found && found[id].startDate <= d <= found[id].endDate
  }

  /** Strictly ascending: sorted and free of duplicates. */
  ghost predicate Increasing(days: seq<Date>) {
    forall i, j :: 0 <= i < j < |days| ==> days[i] < days[j]
  }

  /** Add every day of `b`, start to end inclusive, to `blocked`: the inner
      `while (!date.isAfter(booking.endDate))` loop. */
  method AddDays(blocked: set<Date>, b: Booking) returns (blocked': set<Date>)
    ensures forall x :: x in blocked' <==> x in blocked || b.startDate <= x <= b.endDate
  {
    blocked' := blocked;
    var date := b.startDate;
    while date <= b.endDate
      invariant b.startDate <= date
      invariant date <= b.endDate + 1 || date == b.startDate
      invariant forall x :: x in blocked' <==> x in blocked || b.startDate <= x < date
    {
      blocked' := blocked' + {date};
      date := date + 1;
    }
  }

  /** The set of days the bookings cover, with bounds `lo..hi` enclosing it. */
  method CollectDays(found: map<BookingId, Booking>) returns (blocked: set<Date>, lo: Date, hi: Date)
    ensures forall d :: d in blocked <==> Covered(found, d)
    ensures forall d :: d in blocked ==> lo <= d <= hi
    ensures lo <= hi + 1
  {
    blocked, lo, hi := {}, 0, -1;
    var todo := found.Keys;
    while todo != {}
      invariant todo <= found.Keys
      invariant forall d :: d in blocked <==> CoveredBy(found, found.Keys - todo, d)
      invariant forall d :: d in blocked ==> lo <= d <= hi
      invariant lo <= hi + 1
      decreases |todo|
    {
      var key := PickKey(todo);
      var b := found[key];
      if b.startDate <= b.endDate {
        if blocked == {} {
          lo, hi := b.startDate, b.endDate;
        } else {
          lo := if b.startDate < lo then b.startDate else lo;
          hi := if b.endDate > hi then b.endDate else hi;
        }
      }
      blocked := AddDays(blocked, b);
      todo := todo - {key};
    }
  }

  /** List a set of days in ascending order by scanning its bounds. */
  method ListAscending(blocked: set<Date>, lo: Date, hi: Date) returns (days: seq<Date>)
    requires forall d :: d in blocked ==> lo <= d <= hi
    requires lo <= hi + 1
    ensures Increasing(days)
    ensures forall d :: d in days <==> d in blocked
  {
    days := [];
    var d := lo;
    while d <= hi
      invariant lo <= d <= hi + 1
      invariant Increasing(days)
      invariant forall x :: x in days <==> x in blocked && lo <= x < d
      invariant forall i :: 0 <= i < |days| ==> days[i] < d
    {
      if d in blocked {
        days := days + [d];
      }
      d := d + 1;
    }
  }

  /** Expand bookings into the ascending list of the days they cover: collect the
      days into a set, then list the set in ascending order. */
  method ExpandDays(found: map<BookingId, Booking>) returns (days: seq<Date>)
    ensures Increasing(days)
    ensures forall d :: d in days <==> Covered(found, d)
  {
    var blocked, lo, hi := CollectDays(found);
    days := ListAscending(blocked, lo, hi);
  }

  /** `getUnavailableDates`: empty for an unknown or inactive car; otherwise every
      day of every live booking of the car that meets the window
      `[today, horizonEnd]` (today plus one year), in ascending order without
      repeats. Whole bookings are expanded, including days outside the window. */
  method GetUnavailableDates(store: Store, carId: CarId, today: Date, horizonEnd: Date) returns (days: seq<Date>)
    ensures FindCarById(store.cars, carId).None? ==> days == []
    ensures FindCarById(store.cars, carId).Some? && !FindCarById(store.cars, carId).value.active ==> days == []
    ensures Increasing(days)
    ensures FindCarById(store.cars, carId).Some? && FindCarById(store.cars, carId).value.active ==>
      forall d :: d in days <==> exists id ::
        && id in store.bookings
        && Conflicts(store.bookings[id], carId, today, horizonEnd)
        && store.bookings[id].startDate <= d <= store.bookings[id].endDate
  {
    var car := FindCarById(store.cars, carId);
    if car.None? || !car.value.active {
      return [];
    }
    var found := FindOverlappingBookings(store.bookings, carId, today, horizonEnd);
    days := ExpandDays(found);
  }

  /** The first unavailable day is the earliest start among the expanded bookings
      that cover at least one day. */
  lemma FirstDayIsEarliestStart(found: map<BookingId, Booking>, days: seq<Date>)
    requires Increasing(days)
    requires forall d :: d in days <==> Covered(found, d)
    requires |days| > 0
    ensures exists id :: id in found && found[id].startDate == days[0]
    ensures forall id :: id in found && found[id].startDate <= found[id].endDate ==> days[0] <= found[id].startDate
  {
    assert days[0] in days;
    var id :| id in found && found[id].startDate <= days[0] <= found[id].endDate;
    var s := found[id].startDate;
    assert Covered(found, s);
    var k :| 0 <= k < |days| && days[k] == s;
    forall id' | id' in found && found[id'].startDate <= found[id'].endDate
      ensures days[0] <= found[id'].startDate
    {
      assert Covered(found, found[id'].startDate);
      var k' :| 0 <= k' < |days| && days[k'] == found[id'].startDate;
    }
  }

  /** A day inside a booking that meets the window is one of the listed days. */
  lemma ListedDay(store: Store, carId: CarId, today: Date, horizonEnd: Date, days: seq<Date>, id: BookingId, d: Date)
    requires forall d :: d in days <==> exists id ::
      && id in store.bookings
      && Conflicts(store.bookings[id], carId, today, horizonEnd)
      && store.bookings[id].startDate <= d <= store.bookings[id].endDate
    requires id in store.bookings && Conflicts(store.bookings[id], carId, today, horizonEnd)
    requires store.bookings[id].startDate <= d <= store.bookings[id].endDate
    ensures d in days
  {
  }

  /** A range the calendar lets the customer pick (inside the window, no greyed-out
      day in it) meets no live booking of the car, provided every such booking
      covers at least one day. */
  lemma FreeCalendarRangeHasNoConflict(store: Store, carId: CarId, today: Date, horizonEnd: Date,
                                       days: seq<Date>, startDate: Date, endDate: Date)
    requires forall d :: d in days <==> exists id ::
      && id in store.bookings
      && Conflicts(store.bookings[id], carId, today, horizonEnd)
      && store.bookings[id].startDate <= d <= store.bookings[id].endDate
    requires today <= startDate <= endDate <= horizonEnd
    requires forall d :: startDate <= d <= endDate ==> d !in days
    requires forall id ::
      (id in store.bookings && store.bookings[id].carId == carId && Live(store.bookings[id]))
      ==> store.bookings[id].startDate <= store.bookings[id].endDate
    ensures forall id :: id in store.bookings ==> !Conflicts(store.bookings[id], carId, startDate, endDate)
  {
    forall id | id in store.bookings
      ensures !Conflicts(store.bookings[id], carId, startDate, endDate)
    {
      var b := store.bookings[id];
      if Conflicts(b, carId, startDate, endDate) {
        var d := if b.startDate < startDate then startDate else b.startDate;
        ListedDay(store, carId, today, horizonEnd, days, id, d);
        assert false;
      }
    }
  }
}

=== FILE: booking_request.dfy ===
/**
 * The bean-validation constraints of `CreateBookingRequest`, the JSON body of
 * `POST /api/v1/bookings`. Validation collects every violated constraint; the
 * request is accepted when none is violated. A missing field never reaches the
 * validator (the Kotlin properties are non-null, so deserialisation rejects it),
 * and the `@Email` format check belongs to an external library: the email is only
 * required to be non-blank here.
 */
module BookingRequest {
  import opened Domain

  datatype CreateBookingRequest = CreateBookingRequest(
    carId: int,
    customerName: string,
    customerEmail: string,
    customerAddress: string,
    customerPhone: string,
    startDate: Date,
    endDate: Date)

  datatype Violation =
    | CarIdNotPositive
    | NameBlank | NameSize
    | EmailBlank
    | AddressBlank | AddressSize
    | PhoneBlank | PhonePattern

  /** `@NotBlank`: the string is empty after Java's `trim()`, which strips every
      character at or below U+0020. */
  predicate IsBlank(s: string) {
    forall i :: 0 <= i < |s| ==> s[i] <= ' '
  }

  /** Java's `String.length()`: the number of UTF-16 code units, where a
      character beyond the Basic Multilingual Plane takes a surrogate pair. */
  function Utf16Length(s: string): (n: nat)
    ensures |s| <= n <= 2 * |s|
  {
    if s == [] then 0
    else (if s[0] as int < 0x1_0000 then 1 else 2) + Utf16Length(s[1..])
  }

  /** Every character lies in the Basic Multilingual Plane: one code unit each. */
  predicate InBmp(s: string) {
    forall i :: 0 <= i < |s| ==> s[i] as int < 0x1_0000
  }

  /** A string inside the Basic Multilingual Plane is as many code units long as
      it has characters. */
  lemma {:induction false} BmpLength(s: string)
    requires InBmp(s)
    ensures Utf16Length(s) == |s|
  {
    if s != [] {
      assert InBmp(s[1..]) by { assert forall i :: 0 <= i < |s[1..]| ==> s[1..][i] == s[i + 1]; }
      BmpLength(s[1..]);
    }
  }

  /** A string of characters outside the Basic Multilingual Plane is twice as many
      UTF-16 units as characters. */
  lemma {:induction false} WideLength(s: string)
    requires forall i :: 0 <= i < |s| ==> s[i] as int >= 0x1_0000
    ensures Utf16Length(s) == 2 * |s|
  {
    if s != [] {
      WideLength(s[1..]);
    }
  }

  predicate IsAsciiDigit(c: char) {
    '0' <= c <= '9'
  }

  /** `@Pattern(regexp = "^[+]?[0-9]{10,15}$")`, matched against the whole string:
      an optional leading `+`, then 10 to 15 ASCII digits and nothing else. */
  predicate PhoneMatches(s: string) {
    var digits := if |s| > 0 && s[0] == '+' then s[1..] else s;
    && 10 <= |digits| <= 15
    && forall i :: 0 <= i < |digits| ==> IsAsciiDigit(digits[i])
  }

  const AllViolations: set<Violation> :=
    {CarIdNotPositive, NameBlank, NameSize, EmailBlank, AddressBlank, AddressSize, PhoneBlank, PhonePattern}

  /** Whether the request breaks the one constraint `x`. */
  predicate Violates(req: CreateBookingRequest, x: Violation) {
    match x
    case CarIdNotPositive => req.carId <= 0
    case NameBlank => IsBlank(req.customerName)
    case NameSize => !(2 <= Utf16Length(req.customerName) <= 100)
    case EmailBlank => IsBlank(req.customerEmail)
    case AddressBlank => IsBlank(req.customerAddress)
    case AddressSize => !(5 <= Utf16Length(req.customerAddress) <= 200)
    case PhoneBlank => IsBlank(req.customerPhone)
    case PhonePattern => !PhoneMatches(req.customerPhone)
  }

  /** Every constraint the request violates. */
  function Violations(req: CreateBookingRequest): (v: set<Violation>)
    ensures CarIdNotPositive in v <==> req.carId <= 0
    ensures NameBlank in v <==> IsBlank(req.customerName)
    ensures NameSize in v <==> !(2 <= Utf16Length(req.customerName) <= 100)
    ensures EmailBlank in v <==> IsBlank(req.customerEmail)
    ensures AddressBlank in v <==> IsBlank(req.customerAddress)
    ensures AddressSize in v <==> !(5 <= Utf16Length(req.customerAddress) <= 200)
    ensures PhoneBlank in v <==> IsBlank(req.customerPhone)
    ensures PhonePattern in v <==> !PhoneMatches(req.customerPhone)
  {
    set x | x in AllViolations && Violates(req, x)
  }

  predicate Valid(req: CreateBookingRequest) {
    Violations(req) == {}
  }

  /** A phone number that matches the pattern is never blank, so the pattern alone
      decides the phone field. */
  lemma {:induction false} PhonePatternImpliesNotBlank(s: string)
    requires PhoneMatches(s)
    ensures !IsBlank(s)
  {
    var digits := if |s| > 0 && s[0] == '+' then s[1..] else s;
    assert IsAsciiDigit(digits[0]);
    if |s| > 0 && s[0] == '+' {
      assert s[1] == digits[0];
    } else {
      assert s[0] == digits[0];
    }
  }

  /** The validator looks at neither date: an end date before the start date, or a
      start date in the past, passes it. */
  lemma DatesAreNotValidated(req: CreateBookingRequest, startDate: Date, endDate: Date)
    ensures Valid(req) <==> Valid(req.(startDate := startDate, endDate := endDate))
  {
  }

  /** The request the integration tests send. */
  function TestRequest(startDate: Date, endDate: Date): CreateBookingRequest {
    CreateBookingRequest(1, "John Doe", "john@example.com", "123 Main Street", "+1234567890", startDate, endDate)
  }

  /** No field of the tests' request is blank, and its phone matches the pattern. */
  lemma TestFieldsAreFilled()
    ensures !IsBlank("John Doe") && !IsBlank("Jo") && !IsBlank("J")
    ensures !IsBlank("john@example.com") && !IsBlank("jo@example.com")
    ensures !IsBlank("123 Main Street") && !IsBlank("123")
    ensures !IsBlank("+1234567890") && PhoneMatches("+1234567890")
  {
    var phone := "+1234567890";
    assert phone[1..] == "1234567890";
    assert forall i :: 0 <= i < 10 ==> IsAsciiDigit(phone[1..][i]);
    assert "John Doe"[0] == 'J' && "Jo"[0] == 'J' && "J"[0] == 'J';
    assert "john@example.com"[0] == 'j' && "jo@example.com"[0] == 'j';
    assert "123 Main Street"[0] == '1' && "123"[0] == '1';
    assert phone[0] == '+';
  }

  /** A request whose every field meets its constraints has no violation. */
  lemma NoViolations(req: CreateBookingRequest)
    requires req.carId > 0
    requires !IsBlank(req.customerName) && 2 <= Utf16Length(req.customerName) <= 100
    requires !IsBlank(req.customerEmail)
    requires !IsBlank(req.customerAddress) && 5 <= Utf16Length(req.customerAddress) <= 200
    requires PhoneMatches(req.customerPhone)
    ensures Violations(req) == {}
  {
    PhonePatternImpliesNotBlank(req.customerPhone);
  }

  /** The tests' request passes validation, and so does its variant with the
      two-letter name "Jo" and the email "jo@example.com". */
  lemma ValidationExamples(startDate: Date, endDate: Date)
    ensures Valid(TestRequest(startDate, endDate))
    ensures Valid(TestRequest(startDate, endDate).(customerName := "Jo", customerEmail := "jo@example.com"))
  {
    TestStringLengths();
    TestFieldsAreFilled();
    NoViolations(TestRequest(startDate, endDate));
    NoViolations(TestRequest(startDate, endDate).(customerName := "Jo", customerEmail := "jo@example.com"));
  }

  /** A valid request whose name is changed to a non-blank name of the wrong size
      breaks the name's size constraint and nothing else. */
  lemma OnlyNameSize(req: CreateBookingRequest, name: string)
    requires Valid(req)
    requires !IsBlank(name) && !(2 <= Utf16Length(name) <= 100)
    ensures Violations(req.(customerName := name)) == {NameSize}
  {
  }

  /** A valid request whose address is changed to a non-blank address of the wrong
      size breaks the address's size constraint and nothing else. */
  lemma OnlyAddressSize(req: CreateBookingRequest, address: string)
    requires Valid(req)
    requires !IsBlank(address) && !(5 <= Utf16Length(address) <= 200)
    ensures Violations(req.(customerAddress := address)) == {AddressSize}
  {
  }

  /** A valid request whose phone is changed to a non-blank number that does not
      match the pattern breaks the pattern and nothing else. */
  lemma OnlyPhonePattern(req: CreateBookingRequest, phone: string)
    requires Valid(req)
    requires !IsBlank(phone) && !PhoneMatches(phone)
    ensures Violations(req.(customerPhone := phone)) == {PhonePattern}
  {
  }

  /** The tests' refused variations each break exactly one constraint: the
      one-letter name "J", the three-character address "123" and the phone "123". */
  lemma ValidationFailureExamples(startDate: Date, endDate: Date)
    ensures Violations(TestRequest(startDate, endDate).(customerName := "J")) == {NameSize}
    ensures Violations(TestRequest(startDate, endDate).(customerAddress := "123")) == {AddressSize}
    ensures Violations(TestRequest(startDate, endDate).(customerPhone := "123")) == {PhonePattern}
  {
    ValidationExamples(startDate, endDate);
    TestFieldsAreFilled();
    assert Utf16Length("J") == 1 && Utf16Length("123") == 3;
    assert !PhoneMatches("123");
    OnlyNameSize(TestRequest(startDate, endDate), "J");
    OnlyAddressSize(TestRequest(startDate, endDate), "123");
    OnlyPhonePattern(TestRequest(startDate, endDate), "123");
  }

  /** The names and addresses of the tests are plain ASCII: one code unit per
      character. */
  lemma TestStringLengths()
    ensures Utf16Length("John Doe") == 8
    ensures Utf16Length("Jo") == 2
    ensures Utf16Length("123 Main Street") == 15
  {
  }

  /** `@Size` counts UTF-16 code units: a name made of one character outside the
      Basic Multilingual Plane is two units long and passes the two-character
      minimum, while a hundred such characters are two hundred units and fail the
      maximum. */
  lemma SizeCountsUtf16Units(req: CreateBookingRequest)
    ensures NameSize !in Violations(req.(customerName := "\U{1D49C}"))
    ensures NameSize in Violations(req.(customerName := seq(100, _ => '\U{1D49C}')))
  {
    assert Utf16Length("\U{1D49C}") == 2;
    var wide := seq(100, _ => '\U{1D49C}');
    assert Utf16Length(wide) >= 101 by { WideLength(wide); }
  }
}

=== FILE: booking_service.dfy ===
/**
 * `BookingService.createBooking`: the only way a booking comes into existence.
 * It runs as one sequential step: look up the car, refuse a missing or inactive
 * car, refuse a range that meets a live booking of the car, price the booking,
 * and insert it as PENDING under a fresh id.
 */
module BookingService {
  import opened Wrappers
  import opened Domain
  import opened Repository

  /** The row `createBooking` inserts for `car`. */
  function NewBooking(car: Car, customer: Customer, startDate: Date, endDate: Date, now: Instant): (b: Booking)
    ensures b.carId == car.id && b.customer == customer
    ensures b.startDate == startDate && b.endDate == endDate
    ensures b.status == Pending && b.createdAt == now
    ensures INT_MIN <= endDate - startDate < INT_MAX ==> b.numberOfDays == endDate - startDate + 1
    ensures b.totalAmount == car.dailyRate * b.numberOfDays
  {
    var days := NumberOfDays(startDate, endDate);
    Booking(car.id, customer, startDate, endDate, days, car.dailyRate * days, createdAt := now)
  }

  /** On success: the new store and the id of the booking it added. A failure
      carries no store: the caller's store is unchanged. */
  function CreateBooking(store: Store, carId: CarId, customer: Customer, startDate: Date, endDate: Date, now: Instant)
    : (r: Result<(Store, BookingId), Error>)
    ensures FindCarById(store.cars, carId).None? ==> r == Failure(CarNotFound)
    ensures FindCarById(store.cars, carId).Some? && !FindCarById(store.cars, carId).value.active
      ==> r == Failure(CarNotAvailable)
    ensures FindCarById(store.cars, carId).Some? && FindCarById(store.cars, carId).value.active
      ==> (r.Success? <==> forall id :: id in store.bookings ==> !Conflicts(store.bookings[id], carId, startDate, endDate))
    ensures FindCarById(store.cars, carId).Some? && FindCarById(store.cars, carId).value.active
      ==> (r.Success? || r == Failure(AlreadyBooked))
    ensures r.Failure? ==> r.error in {CarNotFound, CarNotAvailable, AlreadyBooked}
    ensures r.Success? ==>
      var (s', id) := r.value;
      && id == store.nextBookingId
      && (Wf(store) ==> id !in store.bookings)
      && s'.cars == store.cars
      && s'.bookings.Keys == store.bookings.Keys + {id}
      && (forall k :: k in store.bookings && k != id ==> s'.bookings[k] == store.bookings[k])
      && s'.bookings[id] == NewBooking(FindCarById(store.cars, carId).value, customer, startDate, endDate, now)
  {
    match FindCarById(store.cars, carId)
    case None => Failure(CarNotFound)
    case Some(car) =>
      if !car.active then Failure(CarNotAvailable)
      else if FindOverlappingBookings(store.bookings, carId, startDate, endDate) != map[] then
        OverlapWitness(store.bookings, carId, startDate, endDate);
        Failure(AlreadyBooked)
      else
        var id := store.nextBookingId;
        var b := NewBooking(car, customer, startDate, endDate, now);
        Success((Store(store.cars, store.bookings[id := b], id + 1), id))
  }

  /** Inserting a booking that conflicts with no live booking of its car keeps
      the table free of double bookings. */
  lemma InsertKeepsNoDoubleBooking(bookings: map<BookingId, Booking>, id: BookingId, b: Booking)
    requires id !in bookings && NoDoubleBooking(bookings)
    requires forall k :: k in bookings ==> !Conflicts(bookings[k], b.carId, b.startDate, b.endDate)
    ensures NoDoubleBooking(bookings[id := b])
  {
    var bs := bookings[id := b];
    forall i, j |
      i in bs && j in bs && i != j && bs[i].carId == bs[j].carId && Live(bs[i]) && Live(bs[j])
      ensures !RangesOverlap(bs[i].startDate, bs[i].endDate, bs[j].startDate, bs[j].endDate)
    {
      if i == id {
        assert !Conflicts(bookings[j], b.carId, b.startDate, b.endDate);
      } else if j == id {
        assert !Conflicts(bookings[i], b.carId, b.startDate, b.endDate);
      }
    }
  }

  /** Inserting a booking of a listed car under the next fresh id keeps the
      table facts and grows the table by one. */
  lemma InsertKeepsWf(store: Store, b: Booking)
    requires Wf(store) && FindCarIndex(store.cars, b.carId).Some?
    ensures Wf(Store(store.cars, store.bookings[store.nextBookingId := b], store.nextBookingId + 1))
    ensures |store.bookings[store.nextBookingId := b]| == |store.bookings| + 1
  {
    assert store.nextBookingId !in store.bookings;
  }

  /** A successful create adds exactly one booking, keeps the table facts, and
      keeps the non-cancelled bookings of every car pairwise disjoint. */
  lemma CreateBookingKeepsInvariants(store: Store, carId: CarId, customer: Customer, startDate: Date, endDate: Date, now: Instant)
    requires Wf(store) && NoDoubleBooking(store.bookings)
    ensures var r := CreateBooking(store, carId, customer, startDate, endDate, now);
      r.Success? ==>
        && |r.value.0.bookings| == |store.bookings| + 1
        && Wf(r.value.0)
        && NoDoubleBooking(r.value.0.bookings)
  {
    var r := CreateBooking(store, carId, customer, startDate, endDate, now);
    if r.Success? {
      var car := FindCarById(store.cars, carId).value;
      var b := NewBooking(car, customer, startDate, endDate, now);
      assert r.value.0 == Store(store.cars, store.bookings[store.nextBookingId := b], store.nextBookingId + 1);
      InsertKeepsWf(store, b);
      InsertKeepsNoDoubleBooking(store.bookings, store.nextBookingId, b);
    }
  }

  /** The REST tests' pricing, at 500.00 a day: the five days from tomorrow cost
      2500.00, and a booking starting and ending tomorrow counts one day and costs
      500.00. */
  lemma PricingExamples(car: Car, customer: Customer, today: Date, now: Instant)
    requires car.dailyRate == 50000
    ensures NewBooking(car, customer, today + 1, today + 5, now).numberOfDays == 5
    ensures NewBooking(car, customer, today + 1, today + 5, now).totalAmount == 250000
    ensures NewBooking(car, customer, today + 1, today + 1, now).numberOfDays == 1
    ensures NewBooking(car, customer, today + 1, today + 1, now).totalAmount == 50000
  {
  }
}

=== FILE: car_service.dfy ===
/**
 * `CarService.findAllActiveCars` and `CarService.findAvailableCars`: read-only
 * queries over the car table. They take the store by value, so they cannot
 * change it.
 */
module CarService {
  import opened Wrappers
  import opened Domain
  import opened Repository

  /** `xs` can be obtained from `ys` by deleting elements: same elements, same order. */
  ghost predicate Subsequence<T>(xs: seq<T>, ys: seq<T>)
    decreases |ys|
  {
    if ys == [] then xs == []
    else (|xs| > 0 && xs[0] == ys[0] && Subsequence(xs[1..], ys[1..])) || Subsequence(xs, ys[1..])
  }

  /** `carRepository.findByActiveTrue()`: the active cars, in table order. */
  function FindAllActiveCars(cars: seq<Car>): (r: seq<Car>)
    ensures forall c :: c in r <==> c in cars && c.active
    ensures Subsequence(r, cars)
  {
    if cars == [] then []
    else if cars[0].active then [cars[0]] + FindAllActiveCars(cars[1..])
    else FindAllActiveCars(cars[1..])
  }

  /** The cars of `cars` that have no live booking meeting `[startDate, endDate]`. */
  function WithoutConflicts(bookings: map<BookingId, Booking>, cars: seq<Car>, startDate: Date, endDate: Date)
    : (r: seq<Car>)
    ensures forall c :: c in r <==>
      c in cars && forall id :: id in bookings ==> !Conflicts(bookings[id], c.id, startDate, endDate)
    ensures Subsequence(r, cars)
  {
    if cars == [] then []
    else if FindOverlappingBookings(bookings, cars[0].id, startDate, endDate) == map[] then
      [cars[0]] + WithoutConflicts(bookings, cars[1..], startDate, endDate)
    else
      OverlapWitness(bookings, cars[0].id, startDate, endDate);
      WithoutConflicts(bookings, cars[1..], startDate, endDate)
  }

  /** `findAvailableCars(startDate, endDate)`: with either date missing, every
      active car; otherwise the active cars with no live booking meeting the range,
      in the order `findByActiveTrue` lists them. */
  function FindAvailableCars(store: Store, startDate: Option<Date>, endDate: Option<Date>): (r: seq<Car>)
    ensures startDate.None? || endDate.None? ==> r == FindAllActiveCars(store.cars)
    ensures startDate.Some? && endDate.Some? ==> forall c :: c in r <==>
      && c in store.cars
      && c.active
      && forall id :: id in store.bookings ==> !Conflicts(store.bookings[id], c.id, startDate.value, endDate.value)
    ensures forall c :: c in r ==> c in store.cars && c.active
    ensures Subsequence(r, FindAllActiveCars(store.cars))
  {
    if startDate.None? || endDate.None? then
      SubsequenceReflexive(FindAllActiveCars(store.cars));
      FindAllActiveCars(store.cars)
    else
      WithoutConflicts(store.bookings, FindAllActiveCars(store.cars), startDate.value, endDate.value)
  }

  lemma {:induction false} SubsequenceReflexive<T>(xs: seq<T>)
    ensures Subsequence(xs, xs)
    decreases |xs|
  {
    if xs != [] {
      SubsequenceReflexive(xs[1..]);
    }
  }

  /** Two active cars, one of them booked over the requested range: only the other
      one is offered. */
  lemma OnlyUnbookedCarIsOffered(store: Store, car1: Car, car2: Car, id: BookingId, startDate: Date, endDate: Date)
    requires store.cars == [car1, car2] && car1.active && car2.active && car1.id != car2.id
    requires store.bookings.Keys == {id}
    requires store.bookings[id].carId == car1.id && Live(store.bookings[id])
    requires store.bookings[id].startDate == startDate <= endDate == store.bookings[id].endDate
    ensures FindAvailableCars(store, Some(startDate), Some(endDate)) == [car2]
  {
    assert FindAllActiveCars(store.cars) == [car1, car2];
    assert id in FindOverlappingBookings(store.bookings, car1.id, startDate, endDate);
    assert FindOverlappingBookings(store.bookings, car2.id, startDate, endDate) == map[];
    var b := store.bookings;
    assert [car1, car2][1..] == [car2];
    assert [car2][1..] == [];
    assert WithoutConflicts(b, [], startDate, endDate) == [];
    assert WithoutConflicts(b, [car2], startDate, endDate) == [car2];
    assert WithoutConflicts(b, [car1, car2], startDate, endDate) == [car2];
  }
}

=== FILE: date_picker.dfy ===
/**
 * The selection logic of the front-end `DateRangePicker`: a start date, an end
 * date, a "selecting" flag and the month offset of the two calendars shown.
 * Dates are day numbers; the disabled days are those the server listed as
 * unavailable (compared by their `YYYY-MM-DD` text, which is one-to-one with the
 * date, see `IsoDate`).
 */
module DatePicker {
  import opened Wrappers
  import opened Domain

  datatype Picker = Picker(
    startDate: Option<Date>,
    endDate: Option<Date>,
    isSelectingRange: bool,
    currentMonthOffset: int)

  /** What a click inside the picker landed on: a day cell (disabled when it lies
      before today or is an unavailable day), a padding cell, or anything else. */
  datatype ClickTarget = DayCell(date: Date, disabled: bool) | EmptyCell | OtherElement

  /** The state the selection logic keeps: an end date only with a start date not
      after it, and no disabled day in a completed range. */
  ghost predicate Consistent(p: Picker, disabled: set<Date>) {
    && p.currentMonthOffset >= 0
    && (p.endDate.Some? ==>
          && p.startDate.Some?
          && p.startDate.value <= p.endDate.value
          && forall d :: p.startDate.value <= d <= p.endDate.value ==> d !in disabled)
  }

  /** `navigateMonth(direction)`: back one month unless already at the current one,
      forward one month, or nothing for a zero direction. */
  function NavigateMonth(p: Picker, direction: int): (q: Picker)
    ensures q.startDate == p.startDate && q.endDate == p.endDate && q.isSelectingRange == p.isSelectingRange
    ensures p.currentMonthOffset >= 0 ==> q.currentMonthOffset >= 0
    ensures direction < 0 && p.currentMonthOffset <= 0 ==> q == p
    ensures direction < 0 && p.currentMonthOffset > 0 ==> q.currentMonthOffset == p.currentMonthOffset - 1
    ensures direction > 0 ==> q.currentMonthOffset == p.currentMonthOffset + 1
    ensures direction == 0 ==> q == p
  {
    if direction < 0 && p.currentMonthOffset > 0 then p.(currentMonthOffset := p.currentMonthOffset - 1)
    else if direction > 0 then p.(currentMonthOffset := p.currentMonthOffset + 1)
    else p
  }

  /** `togglePicker`: closing leaves the state alone; opening shows the current
      month again. The selection survives either way. */
  function TogglePicker(p: Picker, isOpen: bool): (q: Picker)
    ensures q.startDate == p.startDate && q.endDate == p.endDate && q.isSelectingRange == p.isSelectingRange
    ensures isOpen ==> q == p
    ensures !isOpen ==> q.currentMonthOffset == 0
    ensures forall disabled: set<Date> :: Consistent(p, disabled) ==> Consistent(q, disabled)
  {
    if isOpen then p else p.(currentMonthOffset := 0)
  }

  /** After the picker is opened, a run of clicks leaves the month offset at most
      the number of clicks. */
  lemma OpenedOffsetBound(p: Picker, directions: seq<int>)
    ensures 0 <= NavigateAll(TogglePicker(p, false), directions).currentMonthOffset <= |directions|
  {
    OffsetStaysInRange(TogglePicker(p, false), directions);
  }

  /** A run of prev/next clicks. */
  function NavigateAll(p: Picker, directions: seq<int>): Picker
    decreases |directions|
  {
    if directions == [] then p else NavigateAll(NavigateMonth(p, directions[0]), directions[1..])
  }

  /** However the buttons are clicked, the month offset never goes below zero and
      never exceeds the starting offset plus the number of clicks. */
  lemma {:induction false} OffsetStaysInRange(p: Picker, directions: seq<int>)
    requires p.currentMonthOffset >= 0
    ensures 0 <= NavigateAll(p, directions).currentMonthOffset
      <= p.currentMonthOffset + |directions|
    decreases |directions|
  {
    if directions != [] {
      OffsetStaysInRange(NavigateMonth(p, directions[0]), directions[1..]);
    }
  }

  /** `hasDisabledDatesInRange(start, end)`: walk the days from start to end. */
  function HasDisabledDatesInRange(disabled: set<Date>, startDate: Date, endDate: Date): (r: bool)
    ensures r <==> exists d :: startDate <= d <= endDate && d in disabled
    decreases endDate - startDate
  {
    if startDate > endDate then false
    else if startDate in disabled then true
    else HasDisabledDatesInRange(disabled, startDate + 1, endDate)
  }

  /** `handleDateClick`: only an enabled day cell does anything. With no start, or
      with a completed range, the click starts a new selection. With only a start,
      the click completes the range in date order, unless a disabled day lies
      between the two, in which case the click starts a new selection instead. */
  function HandleDateClick(p: Picker, disabled: set<Date>, target: ClickTarget): (q: Picker)
    ensures !target.DayCell? || target.disabled ==> q == p
    ensures q.currentMonthOffset == p.currentMonthOffset
    ensures target.DayCell? && !target.disabled && (p.startDate.None? || p.endDate.Some?) ==>
      q == p.(startDate := Some(target.date), endDate := None, isSelectingRange := true)
    ensures target.DayCell? && !target.disabled && p.startDate.Some? && p.endDate.None? ==>
      var lo := if target.date < p.startDate.value then target.date else p.startDate.value;
      var hi := if target.date < p.startDate.value then p.startDate.value else target.date;
      if exists d :: lo <= d <= hi && d in disabled then
        q == p.(startDate := Some(target.date), endDate := None, isSelectingRange := true)
      else
        q == p.(startDate := Some(lo), endDate := Some(hi), isSelectingRange := false)
  {
    match target
    case DayCell(clicked, cellDisabled) =>
      if cellDisabled then p
      else if p.startDate.None? || p.endDate.Some? then
        p.(startDate := Some(clicked), endDate := None, isSelectingRange := true)
      else
        var start := p.startDate.value;
        var rangeStart := if clicked < start then clicked else start;
        var rangeEnd := if clicked < start then start else clicked;
        if HasDisabledDatesInRange(disabled, rangeStart, rangeEnd) then
          p.(startDate := Some(clicked), endDate := None, isSelectingRange := true)
        else if clicked < start then
          p.(startDate := Some(clicked), endDate := Some(start), isSelectingRange := false)
        else
          p.(endDate := Some(clicked), isSelectingRange := false)
    case _ => p
  }

  /** Every click keeps a consistent state consistent, and a click on an enabled day
      makes any state consistent: a completed range is ordered and free of
      disabled days. */
  lemma HandleDateClickIsConsistent(p: Picker, disabled: set<Date>, target: ClickTarget)
    requires p.currentMonthOffset >= 0
    requires Consistent(p, disabled) || (target.DayCell? && !target.disabled)
    ensures Consistent(HandleDateClick(p, disabled, target), disabled)
  {
  }

  /** `confirmSelection`: the callbacks receive the range only when both ends are set. */
  function ConfirmSelection(p: Picker): (r: Option<(Date, Date)>)
    ensures r.Some? <==> p.startDate.Some? && p.endDate.Some?
    ensures r.Some? ==> r.value == (p.startDate.value, p.endDate.value)
  {
    if p.startDate.Some? && p.endDate.Some? then Some((p.startDate.value, p.endDate.value)) else None
  }

  /** A confirmed range from a consistent picker is ordered and contains no
      disabled day. */
  lemma ConfirmedRangeIsBookable(p: Picker, disabled: set<Date>)
    requires Consistent(p, disabled)
    requires ConfirmSelection(p).Some?
    ensures var (s, e) := ConfirmSelection(p).value;
      s <= e && forall d :: s <= d <= e ==> d !in disabled
  {
  }
}

=== FILE: domain.dfy ===
/**
 * The two persistent entities, cars and bookings, and the scalar types they are
 * built from.
 *
 *  - A calendar date is a day number (`LocalDate.toEpochDay()`): the day after `d`
 *    is `d + 1`, and comparing day numbers compares dates.
 *  - Money is a whole number of cents: the columns are `BigDecimal` with scale 2.
 *  - A `LocalDateTime` timestamp is an opaque integer supplied by the caller,
 *    since the clock is outside the model.
 */
module Domain {
  import opened Wrappers

  type Date = int
  type Cents = int
  type Instant = int
  type CarId = int
  type BookingId = int

  /** The three values of the `BookingStatus` enum. */
  datatype BookingStatus = Pending | Confirmed | Cancelled

  /** A rentable car. `id` and `createdAt` never change once the row exists;
      `active` defaults to true and `imagePath` is optional. */
  datatype Car = Car(
    id: CarId,
    brand: string,
    model: string,
    dailyRate: Cents,
    imagePath: Option<string> := None,
    active: bool := true,
    createdAt: Instant,
    updatedAt: Instant)

  /** The four required customer columns of a booking. */
  datatype Customer = Customer(name: string, email: string, address: string, phone: string)

  /** A booking of exactly one car over the inclusive range `[startDate, endDate]`.
      The booking's own id is its key in the store. `status` defaults to PENDING. */
  datatype Booking = Booking(
    carId: CarId,
    customer: Customer,
    startDate: Date,
    endDate: Date,
    numberOfDays: int,
    totalAmount: Cents,
    status: BookingStatus := Pending,
    createdAt: Instant)

  /** Why an operation refused to act. */
  datatype Error =
    | CarNotFound       // the car id is not in the car table
    | CarNotAvailable   // the car exists but is inactive
    | AlreadyBooked     // a non-cancelled booking of the car overlaps the range
    | EndBeforeStart    // the end date lies before the start date
    | StartInPast       // the start date lies before today
    | BookingNotFound   // the booking id is not in the booking table

  const INT_MIN: int := -0x8000_0000
  const INT_MAX: int := 0x7fff_ffff

  /** Kotlin's `Long.toInt()` and `Int` arithmetic: keep the low 32 bits, read as
      two's complement. */
  function ToInt(x: int): (r: int)
    ensures INT_MIN <= r <= INT_MAX
    ensures (x - r) % 0x1_0000_0000 == 0
    ensures INT_MIN <= x <= INT_MAX ==> r == x
  {
    (x - INT_MIN) % 0x1_0000_0000 + INT_MIN
  }

  /** `ChronoUnit.DAYS.between(start, end).toInt() + 1`: the inclusive day count,
      computed in 32-bit `Int` arithmetic. */
  function NumberOfDays(startDate: Date, endDate: Date): (n: int)
    ensures INT_MIN <= n <= INT_MAX
    ensures INT_MIN <= endDate - startDate < INT_MAX ==> n == endDate - startDate + 1
    ensures startDate <= endDate < startDate + INT_MAX ==> 1 <= n
  {
    ToInt(ToInt(endDate - startDate) + 1)
  }

  /** A range whose end lies `INT_MAX` days after its start (`INT_MAX + 1` days
      inclusive) is not counted correctly: its day count wraps around to a
      negative `Int`. */
  lemma NumberOfDaysWraps(startDate: Date)
    ensures NumberOfDays(startDate, startDate + INT_MAX) == INT_MIN
  {
  }
}

=== FILE: iso_date.dfy ===
/**
 * The picker's `formatDate`: a date's calendar fields written as
 * `year-MM-DD`. Month and day are zero-padded to two digits; the year is written
 * as JavaScript writes a number, without padding, so the text is the ISO 8601
 * calendar date `YYYY-MM-DD` exactly for the years 1000 to 9999.
 */
module IsoDate {
  import opened Wrappers

  /** The fields `formatDate` reads: `getFullYear()`, `getMonth()` (0 to 11) and
      `getDate()` (1 to 31). */
  datatype CivilDate = CivilDate(year: int, monthIndex: int, dayOfMonth: int)

  predicate ValidFields(d: CivilDate) {
    0 <= d.monthIndex <= 11 && 1 <= d.dayOfMonth <= 31
  }

  predicate IsDigit(c: char) {
    '0' <= c <= '9'
  }

  predicate AllDigits(s: string) {
    forall i :: 0 <= i < |s| ==> IsDigit(s[i])
  }

  function DigitChar(n: nat): char
    requires n < 10
  {
    ['0', '1', '2', '3', '4', '5', '6', '7', '8', '9'][n]
  }

  function DigitValue(c: char): nat
    requires IsDigit(c)
  {
    (c as int - '0' as int) as nat
  }

  /** `String(n)` for a non-negative integer: its decimal digits, no leading zero. */
  function Decimal(n: nat): (s: string)
    ensures |s| >= 1 && AllDigits(s)
    ensures (|s| == 1) == (n < 10)
    ensures s[0] == '0' <==> n == 0
    decreases n
  {
    if n < 10 then [DigitChar(n)] else Decimal(n / 10) + [DigitChar(n % 10)]
  }

  /** `String(n)` for any integer: a minus sign before the digits of a negative one. */
  function Signed(n: int): string {
    if n < 0 then "-" + Decimal(-n) else Decimal(n)
  }

  /** `String(n).padStart(2, '0')`. */
  function PadStart2(s: string): string {
    if |s| >= 2 then s else seq(2 - |s|, _ => '0') + s
  }

  /** `formatDate(date)`. */
  function FormatDate(d: CivilDate): (s: string)
    requires ValidFields(d)
    ensures |s| >= 7 && s[|s| - 3] == '-' && s[|s| - 6] == '-'
    ensures AllDigits(s[|s| - 5..|s| - 3]) && AllDigits(s[|s| - 2..])
  {
    Signed(d.year) + "-" + PadStart2(Decimal(d.monthIndex + 1)) + "-" + PadStart2(Decimal(d.dayOfMonth))
  }

  /** The value of a string of decimal digits. */
  function ParseDecimal(s: string): nat
    requires AllDigits(s)
    decreases |s|
  {
    if s == [] then 0 else ParseDecimal(s[..|s| - 1]) * 10 + DigitValue(s[|s| - 1])
  }

  /** The year part: digits, optionally after a minus sign. */
  function ParseSigned(s: string): Option<int> {
    if |s| > 1 && s[0] == '-' && AllDigits(s[1..]) then Some(-(ParseDecimal(s[1..]) as int))
    else if |s| > 0 && AllDigits(s) then Some(ParseDecimal(s))
    else None
  }

  /** Read `year-MM-DD` back into calendar fields. */
  function ParseDate(s: string): Option<CivilDate> {
    if |s| < 7 || s[|s| - 3] != '-' || s[|s| - 6] != '-' then None
    else
      var month := s[|s| - 5..|s| - 3];
      var day := s[|s| - 2..];
      if !AllDigits(month) || !AllDigits(day) then None
      else match ParseSigned(s[..|s| - 6])
        case None => None
        case Some(year) => Some(CivilDate(year, ParseDecimal(month) - 1, ParseDecimal(day)))
  }

  lemma {:induction false} DecimalRoundTrip(n: nat)
    ensures ParseDecimal(Decimal(n)) == n
    decreases n
  {
    if n >= 10 {
      DecimalRoundTrip(n / 10);
      var s := Decimal(n);
      assert s[..|s| - 1] == Decimal(n / 10);
    }
  }

  lemma {:induction false} PadStart2RoundTrip(n: nat)
    requires n < 100
    ensures |PadStart2(Decimal(n))| == 2 && AllDigits(PadStart2(Decimal(n)))
    ensures ParseDecimal(PadStart2(Decimal(n))) == n
  {
    DecimalRoundTrip(n);
    if n < 10 {
      var s := PadStart2(Decimal(n));
      assert s == ['0', DigitChar(n)];
      assert s[..1] == ['0'];
      assert s[..1][..0] == [];
    } else {
      DecimalRoundTrip(n / 10);
      assert Decimal(n / 10) == [DigitChar(n / 10)];
    }
  }

  lemma SignedRoundTrip(n: int)
    ensures ParseSigned(Signed(n)) == Some(n)
  {
    if n < 0 {
      NegativeRoundTrip(-n);
    } else {
      var s := Decimal(n);
      DecimalRoundTrip(n);
      assert s[0] != '-' by { assert IsDigit(s[0]); }
    }
  }

  lemma NegativeRoundTrip(m: nat)
    requires m > 0
    ensures ParseSigned("-" + Decimal(m)) == Some(-(m as int))
  {
    var digits := Decimal(m);
    DecimalRoundTrip(m);
    var s := "-" + digits;
    assert s[1..] == digits;
  }

  /** Reading back a formatted date gives the same calendar fields. */
  lemma FormatDateRoundTrip(d: CivilDate)
    requires ValidFields(d)
    ensures ParseDate(FormatDate(d)) == Some(d)
  {
    var y := Signed(d.year);
    var m := PadStart2(Decimal(d.monthIndex + 1));
    var dd := PadStart2(Decimal(d.dayOfMonth));
    PadStart2RoundTrip(d.monthIndex + 1);
    PadStart2RoundTrip(d.dayOfMonth);
    SignedRoundTrip(d.year);
    ParseJoined(y, m, dd);
  }

  /** A year text, a dash, two month digits, a dash and two day digits read back
      as their parts. */
  lemma ParseJoined(y: string, m: string, dd: string)
    requires |m| == 2 && |dd| == 2 && AllDigits(m) && AllDigits(dd)
    requires ParseSigned(y).Some?
    ensures ParseDate(y + "-" + m + "-" + dd)
      == Some(CivilDate(ParseSigned(y).value, ParseDecimal(m) - 1, ParseDecimal(dd)))
  {
    var s := y + "-" + m + "-" + dd;
    assert s[..|s| - 6] == y;
    assert s[|s| - 5..|s| - 3] == m;
    assert s[|s| - 2..] == dd;
  }

  /** Different dates never share a text, so comparing the texts (as the picker's
      `disabledDates.includes` does) compares the dates. */
  lemma FormatDateInjective(a: CivilDate, b: CivilDate)
    requires ValidFields(a) && ValidFields(b)
    ensures FormatDate(a) == FormatDate(b) <==> a == b
  {
    FormatDateRoundTrip(a);
    FormatDateRoundTrip(b);
  }

  /** For four-digit years the text has the ISO 8601 shape: ten characters, digits
      everywhere except the dashes at positions 4 and 7. */
  lemma FormatDateIsIso8601(d: CivilDate)
    requires ValidFields(d) && 1000 <= d.year <= 9999
    ensures var s := FormatDate(d);
      && |s| == 10
      && s[4] == '-' && s[7] == '-'
      && forall i :: 0 <= i < 10 && i != 4 && i != 7 ==> IsDigit(s[i])
  {
    var y := Decimal(d.year);
    assert |y| == 4 by {
      assert Decimal(d.year / 10) == Decimal(d.year / 10 / 10) + [DigitChar(d.year / 10 % 10)];
      assert Decimal(d.year / 10 / 10) == Decimal(d.year / 10 / 10 / 10) + [DigitChar(d.year / 10 / 10 % 10)];
    }
    PadStart2RoundTrip(d.monthIndex + 1);
    PadStart2RoundTrip(d.dayOfMonth);
  }

  /** For years 0 to 999 the year is not padded, so the text is shorter than the
      ten characters of an ISO 8601 date. */
  lemma ShortYearIsNotIso8601(d: CivilDate)
    requires ValidFields(d) && 0 <= d.year < 1000
    ensures |FormatDate(d)| < 10
  {
    assert |Decimal(d.year)| <= 3 by {
      if d.year >= 10 {
        assert Decimal(d.year) == Decimal(d.year / 10) + [DigitChar(d.year % 10)];
        if d.year >= 100 {
          assert Decimal(d.year / 10) == Decimal(d.year / 10 / 10) + [DigitChar(d.year / 10 % 10)];
        }
      }
    }
    PadStart2RoundTrip(d.monthIndex + 1);
    PadStart2RoundTrip(d.dayOfMonth);
  }
}

=== FILE: public_pages.dfy ===
/**
 * The server side of the public booking pages in `PublicController`: the booking
 * page lookup and the booking form submission. (Its availability endpoints are
 * copies of `ApiController`'s and are modelled in `Availability`.)
 */
module PublicPages {
  import opened Wrappers
  import opened Domain
  import opened Repository
  import CarService
  import BookingService

  /** `bookingPage(carId)`: the car is looked up among the active cars only, and
      the page fails for any other id. */
  function BookingPage(store: Store, carId: CarId): (r: Result<Car, Error>)
    ensures r.Success? <==> exists c :: c in store.cars && c.active && c.id == carId
    ensures r.Success? ==> r.value in store.cars && r.value.active && r.value.id == carId
    ensures r.Failure? ==> r.error == CarNotFound
  {
    match FindCarById(CarService.FindAllActiveCars(store.cars), carId)
    case Some(car) => Success(car)
    case None => Failure(CarNotFound)
  }

  /** `submitBooking`, as written: the form fields go straight to
      `createBooking`, with no check of the date order or of past dates. Any
      failure is turned into an error message and stores nothing; success stores
      one new booking under the next counter id and changes nothing else. */
  function SubmitBooking(store: Store, carId: CarId, startDate: Date, endDate: Date, customer: Customer, now: Instant)
    : (r: Result<Store, Error>)
    ensures r.Failure? <==> BookingService.CreateBooking(store, carId, customer, startDate, endDate, now).Failure?
    ensures r.Failure? ==> r.error == BookingService.CreateBooking(store, carId, customer, startDate, endDate, now).error
    ensures r.Success? ==>
      && r.value.cars == store.cars
      && r.value.bookings.Keys == store.bookings.Keys + {store.nextBookingId}
      && (forall k :: k in store.bookings && k != store.nextBookingId ==> r.value.bookings[k] == store.bookings[k])
      && FindCarById(store.cars, carId).Some?
      && r.value.bookings[store.nextBookingId]
         == BookingService.NewBooking(FindCarById(store.cars, carId).value, customer, startDate, endDate, now)
  {
    match BookingService.CreateBooking(store, carId, customer, startDate, endDate, now)
    case Success((s', _)) => Success(s')
    case Failure(e) => Failure(e)
  }

  /** The booking form test on an empty booking table: submitting tomorrow to
      three days ahead for an active car stores exactly one booking, with the
      customer and the car. */
  lemma FormSubmissionStoresBooking(car: Car, customer: Customer, today: Date, now: Instant)
    requires car.active
    ensures var store := Store([car], map[], 1);
      var r := SubmitBooking(store, car.id, today + 1, today + 3, customer, now);
      && r.Success?
      && r.value.bookings.Keys == {1}
      && r.value.bookings[1].customer == customer
      && r.value.bookings[1].carId == car.id
  {
    var store := Store([car], map[], 1);
    assert FindCarById(store.cars, car.id) == Some(car);
  }

  /** The booking form pricing test: for an active car at 50.00 a day, submitting
      tomorrow to five days ahead stores one booking of 5 days costing 250.00. */
  lemma FormSubmissionPricing(car: Car, customer: Customer, today: Date, now: Instant)
    requires car.active && car.dailyRate == 5000
    ensures var store := Store([car], map[], 1);
      var r := SubmitBooking(store, car.id, today + 1, today + 5, customer, now);
      && r.Success?
      && r.value.bookings.Keys == {1}
      && r.value.bookings[1].numberOfDays == 5
      && r.value.bookings[1].totalAmount == 25000
  {
    var store := Store([car], map[], 1);
    assert FindCarById(store.cars, car.id) == Some(car);
  }

  /** Every live booking covers at least one day. */
  ghost predicate WellFormedRanges(bookings: map<BookingId, Booking>) {
    forall id :: id in bookings && Live(bookings[id]) ==> bookings[id].startDate <= bookings[id].endDate
  }

  /** The as-written form path accepts an end date before the start date. With a
      car at 50.00 a day, the range from day 10 back to day 8 is stored as a
      booking of -1 days costing -50.00. Its range covers no day, so it adds no
      unavailable date, yet it still blocks every later request spanning days 8 to 10. */
  lemma SubmitBookingAcceptsInvertedRange(customer: Customer, now: Instant)
    ensures var car := Car(1, "Toyota", "Corolla", 5000, createdAt := 0, updatedAt := 0);
      var store := Store([car], map[], 1);
      var r := SubmitBooking(store, 1, 10, 8, customer, now);
      && r.Success?
      && r.value.bookings[1].numberOfDays == -1
      && r.value.bookings[1].totalAmount == -5000
      && !WellFormedRanges(r.value.bookings)
      && BookingService.CreateBooking(r.value, 1, customer, 5, 12, now) == Failure(AlreadyBooked)
  {
    var car := Car(1, "Toyota", "Corolla", 5000, createdAt := 0, updatedAt := 0);
    var store := Store([car], map[], 1);
    var r := SubmitBooking(store, 1, 10, 8, customer, now);
    assert FindCarById(store.cars, 1) == Some(car);
    assert r.Success?;
    var s' := r.value;
    assert 1 in s'.bookings;
    assert FindCarById(s'.cars, 1) == Some(car);
    assert Conflicts(s'.bookings[1], 1, 5, 12);
  }

  /** `submitBooking` with the range check the REST endpoint performs: an end date
      before the start date is refused before `createBooking` runs. */
  function SubmitBookingChecked(store: Store, carId: CarId, startDate: Date, endDate: Date, customer: Customer, now: Instant)
    : (r: Result<Store, Error>)
    ensures endDate < startDate ==> r == Failure(EndBeforeStart)
    ensures startDate <= endDate ==> r == SubmitBooking(store, carId, startDate, endDate, customer, now)
    ensures r.Success? && endDate - startDate < INT_MAX ==>
      forall k :: k in r.value.bookings && k !in store.bookings ==>
        && r.value.bookings[k].numberOfDays >= 1
        && r.value.bookings[k].startDate <= r.value.bookings[k].endDate
  {
    if endDate < startDate then Failure(EndBeforeStart)
    else SubmitBooking(store, carId, startDate, endDate, customer, now)
  }

  /** The checked form path keeps every live booking's range well-formed, which is
      what the calendar's unavailable days rely on. */
  lemma SubmitBookingCheckedKeepsRangesWellFormed(store: Store, carId: CarId, startDate: Date, endDate: Date, customer: Customer, now: Instant)
    requires WellFormedRanges(store.bookings)
    ensures var r := SubmitBookingChecked(store, carId, startDate, endDate, customer, now);
      r.Success? ==> WellFormedRanges(r.value.bookings)
  {
  }
}

=== FILE: repository.dfy ===
/**
 * The two tables and the repository queries the services run against them.
 *
 * The car table is a sequence, so that `findByActiveTrue` has an order to keep;
 * the booking table maps ids to rows, and `nextBookingId` is the identity column
 * that hands out fresh booking ids.
 */
module Repository {
  import opened Wrappers
  import opened Domain

  datatype Store = Store(cars: seq<Car>, bookings: map<BookingId, Booking>, nextBookingId: BookingId)

  /** The position of the first car with the given id (`carRepository.findById`). */
  function FindCarIndex(cars: seq<Car>, id: CarId): (r: Option<nat>)
    ensures r.Some? ==> r.value < |cars| && cars[r.value].id == id
    ensures r.Some? ==> forall j :: 0 <= j < r.value ==> cars[j].id != id
    ensures r.None? <==> forall j :: 0 <= j < |cars| ==> cars[j].id != id
  {
    if |cars| == 0 then None
    else if cars[0].id == id then Some(0)
    else match FindCarIndex(cars[1..], id)
      case None => None
      case Some(i) => Some(i + 1)
  }

  /** `carRepository.findById(id)`: the car with that id, if there is one. */
  function FindCarById(cars: seq<Car>, id: CarId): (r: Option<Car>)
    ensures r.Some? ==> r.value in cars && r.value.id == id
    ensures r.None? <==> forall c :: c in cars ==> c.id != id
  {
    match FindCarIndex(cars, id)
    case None => None
    case Some(i) => Some(cars[i])
  }

  /** Car ids are primary keys. */
  ghost predicate UniqueCarIds(cars: seq<Car>) {
    forall i, j :: 0 <= i < j < |cars| ==> cars[i].id != cars[j].id
  }

  /** With unique ids, the car found by id is the only car carrying that id. */
  lemma FindCarByIdUnique(cars: seq<Car>, c: Car)
    requires UniqueCarIds(cars)
    requires c in cars
    ensures FindCarById(cars, c.id) == Some(c)
  {
  }

  /** The comparison of the overlap query: the first range starts no later than
      the second ends and ends no earlier than the second starts. For ordered
      ranges this means they share a day (`OverlapMeansSharedDay`); an inverted
      range shares no day with anything, yet can still pass it. */
  predicate RangesOverlap(s1: Date, e1: Date, s2: Date, e2: Date) {
    s1 <= e2 && e1 >= s2
  }

  /** The day `d` lies in the inclusive range from `s` to `e`. */
  predicate InRange(d: Date, s: Date, e: Date) {
    s <= d <= e
  }

  /** For ordered inclusive ranges, the query's comparison holds exactly when some
      day lies in both. */
  lemma OverlapMeansSharedDay(s1: Date, e1: Date, s2: Date, e2: Date)
    requires s1 <= e1 && s2 <= e2
    ensures RangesOverlap(s1, e1, s2, e2) <==> exists d :: InRange(d, s1, e1) && InRange(d, s2, e2)
  {
    if RangesOverlap(s1, e1, s2, e2) {
      var d := if s1 < s2 then s2 else s1;
      assert InRange(d, s1, e1) && InRange(d, s2, e2);
    }
  }

  /** An inverted stored range covers no day, yet the comparison still matches a
      request that spans it. */
  lemma InvertedRangeStillOverlaps()
    ensures RangesOverlap(10, 8, 5, 12)
    ensures forall d :: !InRange(d, 10, 8)
  {
  }

  /** A booking takes part in conflict checks unless it is CANCELLED. */
  predicate Live(b: Booking) {
    b.status != Cancelled
  }

  /** The row predicate of `findOverlappingBookings(carId, startDate, endDate)`. */
  predicate Conflicts(b: Booking, carId: CarId, startDate: Date, endDate: Date) {
    b.carId == carId && Live(b) && RangesOverlap(b.startDate, b.endDate, startDate, endDate)
  }

  /** `bookingRepository.findOverlappingBookings`: the bookings of the car that are
      not CANCELLED and whose range meets `[startDate, endDate]`, both ends inclusive. */
  function FindOverlappingBookings(bookings: map<BookingId, Booking>, carId: CarId, startDate: Date, endDate: Date)
    : (r: map<BookingId, Booking>)
    ensures forall id :: id in r <==>
      && id in bookings
      && bookings[id].carId == carId
      && bookings[id].status != Cancelled
      && bookings[id].startDate <= endDate
      && bookings[id].endDate >= startDate
    ensures forall id :: id in r ==> r[id] == bookings[id]
  {
    map id | id in bookings && Conflicts(bookings[id], carId, startDate, endDate) :: bookings[id]
  }

  /** `bookingRepository.findActiveBookingsByCarId`, which the repository interface
      does not declare: read here as the bookings of the car that are not CANCELLED. */
  function FindActiveBookingsByCarId(bookings: map<BookingId, Booking>, carId: CarId): (r: map<BookingId, Booking>)
    ensures forall id :: id in r <==> id in bookings && bookings[id].carId == carId && bookings[id].status != Cancelled
    ensures forall id :: id in r ==> r[id] == bookings[id]
  {
    map id | id in bookings && bookings[id].carId == carId && Live(bookings[id]) :: bookings[id]
  }

  /** The table-level facts every operation keeps: car ids are keys, booking ids
      come from the identity counter, and every booking references a stored car. */
  ghost predicate Wf(s: Store) {
    && UniqueCarIds(s.cars)
    && (forall id :: id in s.bookings ==> id < s.nextBookingId)
    && (forall id :: id in s.bookings ==> FindCarIndex(s.cars, s.bookings[id].carId).Some?)
  }

  /** The central invariant: the non-cancelled bookings of one car are pairwise
      disjoint as inclusive day ranges. */
  ghost predicate NoDoubleBooking(bookings: map<BookingId, Booking>) {
    forall i, j ::
      i in bookings && j in bookings && i != j
      && bookings[i].carId == bookings[j].carId
      && Live(bookings[i]) && Live(bookings[j])
      ==> !RangesOverlap(bookings[i].startDate, bookings[i].endDate, bookings[j].startDate, bookings[j].endDate)
  }

  /** The overlap test is symmetric: a booking meets the query range exactly when
      the query range meets the booking. */
  lemma OverlapIsSymmetric(bookings: map<BookingId, Booking>, id: BookingId, carId: CarId, startDate: Date, endDate: Date)
    requires id in bookings && bookings[id].carId == carId && Live(bookings[id])
    ensures id in FindOverlappingBookings(bookings, carId, startDate, endDate)
        <==> RangesOverlap(startDate, endDate, bookings[id].startDate, bookings[id].endDate)
  {
  }

  /** A CANCELLED booking is never returned, whatever its dates. */
  lemma CancelledNeverConflicts(bookings: map<BookingId, Booking>, id: BookingId, carId: CarId, startDate: Date, endDate: Date)
    requires id in bookings && bookings[id].status == Cancelled
    ensures id !in FindOverlappingBookings(bookings, carId, startDate, endDate)
  {
  }

  /** Back-to-back ranges do not conflict: a booking ending the day before the
      query starts, or starting the day after it ends, is not returned. */
  lemma AdjacentRangesDoNotConflict(bookings: map<BookingId, Booking>, id: BookingId, carId: CarId, startDate: Date, endDate: Date)
    requires id in bookings
    requires bookings[id].endDate == startDate - 1 || bookings[id].startDate == endDate + 1
    ensures id !in FindOverlappingBookings(bookings, carId, startDate, endDate)
  {
  }

  /** A live booking of the car with a well-formed range conflicts with a request
      for the very same dates. */
  lemma SameRangeConflicts(bookings: map<BookingId, Booking>, id: BookingId)
    requires id in bookings && Live(bookings[id])
    requires bookings[id].startDate <= bookings[id].endDate
    ensures id in FindOverlappingBookings(bookings, bookings[id].carId, bookings[id].startDate, bookings[id].endDate)
  {
  }

  /** A non-empty overlap query result names a conflicting booking. */
  lemma OverlapWitness(bookings: map<BookingId, Booking>, carId: CarId, startDate: Date, endDate: Date)
    requires FindOverlappingBookings(bookings, carId, startDate, endDate) != map[]
    ensures exists id :: id in bookings && Conflicts(bookings[id], carId, startDate, endDate)
  {
    var m := FindOverlappingBookings(bookings, carId, startDate, endDate);
    var id := SomeKey(m);
    assert Conflicts(bookings[id], carId, startDate, endDate);
  }

  lemma SomeKey<K, V>(m: map<K, V>) returns (k: K)
    requires m != map[]
    ensures k in m
  {
    assert |m| != 0;
    k :| k in m.Keys;
  }

  /** Some element of a non-empty set (the iteration order of a Kotlin collection). */
  method PickKey<K>(keys: set<K>) returns (k: K)
    requires keys != {}
    ensures k in keys
  {
    k :| k in keys;
  }
}

=== FILE: rest_api.dfy ===
/**
 * `CarRentalApiController.createBooking` (`POST /api/v1/bookings`): validate the
 * request body, refuse an inverted range and a start date in the past, then
 * delegate to `BookingService.createBooking`. Its `getAvailableCars` returns
 * `CarService.findAvailableCars` unchanged and needs nothing beyond
 * `CarService.FindAvailableCars`.
 */
module RestApi {
  import opened Wrappers
  import opened Domain
  import opened Repository
  import opened BookingRequest
  import BookingService

  /** A request the validator refused (HTTP 400), or a refusal by the controller
      or the service. */
  datatype ApiError = InvalidRequest(violations: set<Violation>) | Rejected(error: Error)

  function CustomerOf(req: CreateBookingRequest): Customer {
    Customer(req.customerName, req.customerEmail, req.customerAddress, req.customerPhone)
  }

  /** The endpoint, with `today` standing for `LocalDate.now()` and `now` for
      `LocalDateTime.now()`. */
  function CreateBookingEndpoint(store: Store, req: CreateBookingRequest, today: Date, now: Instant)
    : (r: Result<(Store, BookingId), ApiError>)
    ensures !Valid(req) ==> r == Failure(InvalidRequest(Violations(req)))
    ensures Valid(req) && req.endDate < req.startDate ==> r == Failure(Rejected(EndBeforeStart))
    ensures Valid(req) && req.startDate <= req.endDate && req.startDate < today ==> r == Failure(Rejected(StartInPast))
    ensures Valid(req) && today <= req.startDate <= req.endDate ==>
      match BookingService.CreateBooking(store, req.carId, CustomerOf(req), req.startDate, req.endDate, now)
      case Success(v) => r == Success(v)
      case Failure(e) => r == Failure(Rejected(e))
    ensures r.Success? ==>
      && today <= req.startDate <= req.endDate
      && var b := r.value.0.bookings[r.value.1];
      && b.status == Pending
      && b.carId == req.carId
      && b.customer == CustomerOf(req)
      && b.startDate == req.startDate && b.endDate == req.endDate
      && (req.endDate - req.startDate < INT_MAX ==> b.numberOfDays >= 1)
  {
    if !Valid(req) then Failure(InvalidRequest(Violations(req)))
    else if req.endDate < req.startDate then Failure(Rejected(EndBeforeStart))
    else if req.startDate < today then Failure(Rejected(StartInPast))
    else
      match BookingService.CreateBooking(store, req.carId, CustomerOf(req), req.startDate, req.endDate, now)
      case Success(v) => Success(v)
      case Failure(e) => Failure(Rejected(e))
  }
}

=== FILE: wrappers.dfy ===
/** Failure-carrying result types shared by every module of the model. */
module Wrappers {

  /** A value that may be absent: Kotlin's nullable `T?` and Spring Data's `Optional<T>`. */
  datatype Option<+T> = None | Some(value: T)

  /** Either the value an operation produced or the error it reported (a thrown
      exception, or an error flash message on the admin pages). */
  datatype Result<+T, +E> = Success(value: T) | Failure(error: E)
}
